=== FILE: README.md ===
# Shop backend: request decisions and record edits

This project models the decision logic of an Express/Mongoose shop backend in Dafny. Each request handler is a pure function from a store and a request to a reply. The reply holds a status, the store after the request, and the body when one is worth modelling. The handlers covered are:

- the cart handlers: merging an added line into a cart, filtering a product out of it, and the ownership check on reading it;
- the three authentication middlewares, `verifyToken`, `verifyAdmin` and `verifyUserOrAdmin`, and how the routes chain them;
- the product schema: its bounds, its defaults and the `pre("save")` hook that derives `onSale`;
- the product routes: the sale listing, the image precedence on create and update, and the admin guard;
- the order routes: checkout validation, owner assignment, newest-first listings and the status-only update;
- the auth routes: register, login, `createToken` and the password-free view of a user;
- the user routes: the admin listing, and update and delete behind `verifyUserOrAdmin`.

The store (`Store.Db`) is four maps from id to record. Carts are keyed by their owner. A scanning query such as `find({})` or `findOne({ email })` takes the store's enumeration as an argument. `Common.Lists` ties that enumeration to the map: it holds the map's values, each exactly once, in whatever order the store chooses.

jsonwebtoken and bcryptjs are function-valued fields of `Tokens.TokenService` and `Tokens.Hasher`. What the handlers rely on of them is stated as hypotheses, `SoundTokens` and `SoundHasher`, and never as axioms:

- under the configured `expiresIn` setting, a freshly signed token verifies to its own claims and contains no space;
- a password matches its own digest.

The upload middleware leaves an optional path on the request, and the model treats it as an opaque string. The clock reading an order is stamped with is a parameter. Fresh document ids are parameters that the caller guarantees are unused.

Modules follow the source:

- `Common`, `Seqs`: truthiness, route parameters, statuses, gate outcomes, and sequence filtering with its subsequence lemmas.
- `Accounts`, `Tokens`: user records, the public view of a user, the token service, the hasher, `createToken`.
- `AuthGate`: `middleware/verifyToken.js`.
- `CartMerge`, `CartRoutes`: `routes/cart.routes.js`.
- `Catalog`, `ProductRoutes`: `models/Product.model.js` and `routes/product.routes.js`.
- `OrderModel`, `OrderRoutes`: `routes/order.routes.js`.
- `AuthRoutes`: `routes/auth.routes.js`.
- `UserRoutes`: `routes/user.routes.js`.
- `Store`: the store and the reply shape.

## Model

| member | source | states |
|---|---|---|
| Seqs.Filter | routes/cart.routes.js:72-74 | `Array.prototype.filter`: the result holds exactly the elements that satisfy the test and is never longer than the input |
| Seqs.FilterIsSubseq | routes/product.routes.js:35-38 | filtering keeps the kept elements in their original relative order |
| Seqs.FilterIdempotent | routes/cart.routes.js:72-74 | filtering twice with the same test is filtering once |
| Seqs.FilterKeepsAll | routes/cart.routes.js:72-74 | when every element passes the test, filtering returns the input unchanged |
| Accounts.PublicForgetsOnlyPassword | routes/auth.routes.js:45-50 | two users look the same from outside exactly when they differ at most in the password; the view carries id, name, email and isAdmin and no password |
| Accounts.FindByEmail | routes/auth.routes.js:31 | `findOne({ email })` returns a user with that email from the enumeration, the first one; it returns nothing exactly when no user has that email |
| Accounts.FindByEmailUnique | routes/auth.routes.js:67 | when only one user has the email, `findOne` returns that user |
| Tokens.ExpiresIn | routes/auth.routes.js:18 | the expiry is `JWT_EXPIRES_IN` when set and non-empty, otherwise "3d" |
| Tokens.CreateToken | routes/auth.routes.js:10-20 | when the token service is sound for the configured expiry, the token verifies to exactly `{id, email, isAdmin}` of the user and contains no space |
| AuthGate.Split | middleware/verifyToken.js:16 | `split(" ")` yields at least one piece, two or more exactly when the separator occurs, and no piece contains the separator |
| AuthGate.JoinSplit | middleware/verifyToken.js:16 | rejoining the pieces of a split with the separator restores the string |
| AuthGate.SplitJoin | middleware/verifyToken.js:16 | splitting pieces joined with a separator they lack restores the pieces |
| AuthGate.SplitAfter | middleware/verifyToken.js:16 | a prefix without the separator becomes part of the first piece |
| AuthGate.FirstPiece | middleware/verifyToken.js:16 | the first piece of a split is a prefix of the string, followed by the separator or the end |
| AuthGate.BearerToken | middleware/verifyToken.js:11-16 | a token is extracted exactly when a header is present and starts with "Bearer "; the token is the space-free run after the prefix |
| AuthGate.BearerRoundTrip | middleware/verifyToken.js:11-16 | a space-free token sent as "Bearer " + token is extracted unchanged |
| AuthGate.VerifyToken | middleware/verifyToken.js:8-32 | 401 exactly when the header is missing, malformed or the token fails verification; 404 exactly when a valid token names no stored user; otherwise pass with the stored user minus the password |
| AuthGate.VerifyAdmin | middleware/verifyToken.js:38-55 | passes exactly when the re-fetched user exists and is admin; 404 exactly when it is missing, 403 exactly when it is not admin |
| AuthGate.Target | middleware/verifyToken.js:62 | the target is `params.userId` when truthy, else `body.userId` when truthy, else nothing |
| AuthGate.VerifyUserOrAdmin | middleware/verifyToken.js:61-73 | 400 exactly when neither the param nor the body names a user; passes exactly when the caller is the target or an admin; otherwise 403 |
| AuthGate.AdminGate | routes/product.routes.js:13 | `verifyToken` then `verifyAdmin`: a token rejection is passed through unchanged; with users stored under their ids, it passes exactly when the token's subject is a stored admin |
| AuthGate.AdminGateOutcomes | routes/product.routes.js:120 | behind the admin chain, an unusable token is 401 before any question of privilege, and a stored non-admin is 403 |
| AuthGate.StaleTokenIsNotFound | middleware/verifyToken.js:21-24 | a valid token whose subject has been deleted gives 404, not 401, on both the plain and the admin chain |
| AuthGate.MintedTokenAuthenticates | middleware/verifyToken.js:19-27 | when the token service is sound for the configured expiry, a token minted for a stored user, sent as a bearer header, passes the gate as that user without the password |
| CartMerge.FindLine | routes/cart.routes.js:28 | `find` returns the position of the first line for the product, or nothing exactly when no line is for it |
| CartMerge.AddLine | routes/cart.routes.js:26-34 | with a line for the product, the line count is unchanged, the first such line grows by the quantity and every other line, a second one for the product included, is kept; without one, the new line is appended; the other lines and their order are unchanged |
| CartMerge.Add | routes/cart.routes.js:18-34 | without a cart, the result is a new cart owned by the caller holding exactly `{productId, quantity}`; with one, the lines are merged and the owner is kept |
| CartMerge.RemoveLine | routes/cart.routes.js:72-74 | the result holds exactly the lines for other products, in their original order, and no line for the product |
| CartMerge.AddLineQty | routes/cart.routes.js:26-34 | adding raises the product's total quantity by exactly the amount and leaves every other product's total unchanged |
| CartMerge.RemoveLineQty | routes/cart.routes.js:72-74 | removing zeroes the product's total quantity and leaves every other total unchanged |
| CartMerge.AddLinePreservesWellFormed | routes/cart.routes.js:13-33 | adding a positive quantity to a cart with unique product ids and positive quantities keeps both properties |
| CartMerge.RemoveLinePreservesWellFormed | routes/cart.routes.js:72-74 | removing keeps product ids unique and quantities positive |
| CartMerge.RemoveLineIdempotent | routes/cart.routes.js:72-74 | removing a product twice is removing it once |
| CartMerge.RemoveAbsentIsNoOp | routes/cart.routes.js:72-74 | removing a product that no line holds leaves the lines unchanged |
| CartMerge.Walkthrough | routes/cart.routes.js:11-81 | adding P1×2, P1×3 and P2×1 gives lines [P1×5, P2×1]; removing P1 then leaves [P2×1] |
| CartRoutes.AddToCart | routes/cart.routes.js:11-41 | a token rejection passes through; 400 with the store untouched when the product id is missing or the quantity is not positive; otherwise 200 and only the caller's cart changes; a caller without a cart gets a new one-line cart, and an existing cart keeps its owner and holds its lines merged by `find`-then-increment or push (`CartMerge.AddLine`) |
| CartRoutes.AddToCartMerges | routes/cart.routes.js:26-36 | an accepted add raises the caller's total for the product by the quantity, leaves other totals alone and keeps every stored cart well formed |
| CartRoutes.GetCart | routes/cart.routes.js:46-60 | 403 unless the caller is that user or an admin; then 404 when the user has no cart, and 200 with that cart when there is one; nothing is written |
| CartRoutes.RemoveFromCart | routes/cart.routes.js:65-81 | 404 exactly when the authenticated caller has no cart; otherwise only the caller's cart changes, losing exactly the product's lines with the rest kept in order (the lines are `CartMerge.RemoveLine` of the stored ones); stored carts stay well formed |
| CartRoutes.AddThenGetCart | routes/cart.routes.js:11-60 | after an accepted add, the caller reading their own cart gets 200 and exactly the cart the add answered with |
| CartRoutes.RemoveFromCartIdempotent | routes/cart.routes.js:72-76 | repeating a successful delete of the same product leaves the store and the reply as after the first |
| Catalog.FromFields | models/Product.model.js:3-56 | every carried field is taken as given; a missing one takes the schema default: name "", no description, brand or category, price, salePrice, discount and countInStock 0, onSale false |
| Catalog.Save | models/Product.model.js:59-62 | the saved `onSale` is true exactly when 0 < salePrice < price, whatever value was supplied; no other field changes |
| Catalog.SaveIdempotent | models/Product.model.js:59-62 | running the save hook twice gives the same document as once |
| Catalog.SaveIgnoresSuppliedOnSale | models/Product.model.js:60 | the `onSale` a document arrives with has no effect on the saved document |
| Catalog.SavePreservesValid | models/Product.model.js:59-62 | the hook changes no bounded field, so a document's validity is the same before and after |
| Catalog.Defaults | models/Product.model.js:22-53 | an empty body gives price 0, salePrice 0, discount 0, onSale false, countInStock 0 and image "", and fails the required-name validator |
| Catalog.ApplyFields | routes/product.routes.js:70-74 | the update `$set` keeps the id, replaces every field the body carries (`onSale` included) with the carried value, and keeps every field it does not carry |
| Catalog.FieldsValidSuffice | models/Product.model.js:3-56 | validating each carried field keeps a valid product valid, and a creation body gives a valid product exactly when its carried fields are in bounds and it has a name |
| Catalog.UpdateBypassesOnSaleRule | routes/product.routes.js:70-74 | because no save hook runs on update, an update can leave `onSale` set on a product with no sale price |
| ProductRoutes.SaleListing | routes/product.routes.js:35-43 | a product is listed exactly when its discount is positive, or `onSale` is true, or its sale price is non-zero and below its price; the listing keeps the catalogue's order |
| ProductRoutes.SaleListingMembers | routes/product.routes.js:39-42 | a product with no discount, no flag and no sale price is never listed; a saved product is listed exactly when discounted or sale-priced |
| ProductRoutes.SaleRoute | routes/product.routes.js:33-53 | the public sale route answers 200 with exactly the stored sale items, in store order, and writes nothing |
| ProductRoutes.ListProducts | routes/product.routes.js:90-97 | the public listing answers 200 with the store's enumeration: every stored product, each once, and nothing else; nothing is written |
| ProductRoutes.GetProduct | routes/product.routes.js:104-113 | 200 with the product exactly when the id is stored, otherwise 404 |
| ProductRoutes.CreateImage | routes/product.routes.js:17 | the image is the upload path when present, else the body image when truthy, else "" |
| ProductRoutes.UpdateImage | routes/product.routes.js:62-68 | the upload path overrides; without one, the patch's image is whatever the body carried, possibly nothing |
| ProductRoutes.ImageRulesAgree | routes/product.routes.js:17 | create and update choose the same image unless there is neither an upload nor a truthy body image; they then differ exactly when the body carried no image |
| ProductRoutes.CreateProduct | routes/product.routes.js:13-26 | after the admin chain, 201 exactly when the body passes the schema and has a name, otherwise 400 with nothing stored; the stored product is valid, carries the body's name, texts and numbers or their defaults, has the create image rule, and its `onSale` is derived from its prices |
| ProductRoutes.UpdateProduct | routes/product.routes.js:60-83 | after the admin chain, 400 for an out-of-bounds field, 404 for an unknown id, otherwise only that product changes: every carried field lands, the image by the update rule; validity is kept and `onSale` is not re-derived |
| ProductRoutes.DeleteProduct | routes/product.routes.js:120-130 | after the admin chain, 404 for an unknown id, otherwise the product and nothing else is removed |
| ProductRoutes.CreateThenGet | routes/product.routes.js:13-26 | a product just created is what a read of its id returns |
| ProductRoutes.UpdateThenGet | routes/product.routes.js:60-83 | a product just updated reads back as the update answered it |
| ProductRoutes.DeleteThenGet | routes/product.routes.js:120-130 | after a delete, reading the product or deleting it again with the same credentials answers 404 |
| ProductRoutes.AdminRoutesAuthenticateFirst | routes/product.routes.js:13 | on create, update and delete, an unusable token is 401 whatever the body, and a stored non-admin is 403 whatever the body |
| OrderModel.Insert | routes/order.routes.js:39 | inserting into a newest-first list keeps it newest-first and adds exactly that one order |
| OrderModel.SortNewestFirst | routes/order.routes.js:53 | `sort({ createdAt: -1 })` yields a permutation of its input that is newest-first |
| OrderModel.OrdersOf | routes/order.routes.js:39 | `find({ user }).sort(...)` gives exactly the orders of that user, each as often as stored, newest first |
| OrderModel.SetStatus | routes/order.routes.js:85-89 | only `status` may change; it becomes the body's status when one is sent |
| OrderRoutes.CreateOrder | routes/order.routes.js:11-30 | 400 with nothing stored when products, amount or address is missing, or the amount is 0; otherwise 201 and a new order owned by the caller with status "pending" |
| OrderRoutes.OrderOwnerIsCaller | routes/order.routes.js:18-23 | the owner is the token's subject, and a `user` field in the body changes nothing |
| OrderRoutes.MyOrders | routes/order.routes.js:37-44 | exactly the caller's stored orders, each as often as the enumeration lists it, newest first |
| OrderRoutes.NewOrderListedFirst | routes/order.routes.js:37-44 | a new order appears in its owner's list, behind only orders stamped no earlier |
| OrderRoutes.AllOrders | routes/order.routes.js:51-58 | after the admin chain, every order as stored, each once, newest first |
| OrderRoutes.UserOrders | routes/order.routes.js:65-76 | 403 exactly when the caller is neither that user nor an admin; otherwise exactly that user's orders, each as often as the enumeration lists it, newest first |
| OrderRoutes.UpdateOrderStatus | routes/order.routes.js:83-99 | after the admin chain, 404 for an unknown id; otherwise only that order's status changes |
| OrderRoutes.DeleteOrder | routes/order.routes.js:106-116 | after the admin chain, 404 for an unknown id, otherwise only that order is removed |
| AuthRoutes.FindByEmailInStore | routes/auth.routes.js:31 | over a faithful enumeration, the email lookup finds a user exactly when a stored user has that email, and what it finds is stored |
| AuthRoutes.Register | routes/auth.routes.js:23-56 | 400 when a field is missing or the email is taken, with the store unchanged; otherwise 201; a non-admin user holding the password's digest is stored under a fresh id; the reply holds a token for it and the user without password |
| AuthRoutes.Login | routes/auth.routes.js:59-92 | 400 for a missing field, 404 exactly when no user has the email, 401 exactly when the password fails against the found user's digest, otherwise 200 with a token and the user without password; nothing is written |
| AuthRoutes.RegisterThenLogin | routes/auth.routes.js:23-92 | when the token service is sound for the configured expiry, logging in with the credentials just registered succeeds as the new user, and the token it returns passes `verifyToken` as that user |
| AuthRoutes.Me | routes/auth.routes.js:95-105 | a token rejection passes through; otherwise the caller re-read from the store without password, or 404 when gone |
| AuthRoutes.AdminOnly | routes/auth.routes.js:108-110 | 200 exactly when both `verifyToken` and `verifyAdmin` pass, greeting the admin by email; otherwise their status |
| UserRoutes.ApplyPatch | routes/user.routes.js:32 | every user field the body carries replaces the stored one verbatim, `isAdmin` and an unhashed password included; the id is kept |
| UserRoutes.ApplyPatchLaws | routes/user.routes.js:32 | a body with no user field changes nothing, and applying the same body twice is applying it once |
| UserRoutes.PublicAll | routes/user.routes.js:18 | `select("-password")`: each user's public view, one for one, in store order |
| UserRoutes.PublicAllCovers | routes/user.routes.js:18 | over a faithful enumeration the listing shows every stored user and nothing else |
| UserRoutes.ListUsers | routes/user.routes.js:16-23 | after the admin chain, every stored user without password, and nothing else |
| UserRoutes.UpdateUser | routes/user.routes.js:30-44 | as written: 400 without `body.userId`, 403 when the caller is neither that body user nor an admin, and the route's `:id` plays no part in the gate; then 404 or the patched user without password |
| UserRoutes.DeleteUser | routes/user.routes.js:51-61 | as written: the same gate on `body.userId`, then 404 or removal of `:id` |
| UserRoutes.UpdateUserIntended | routes/user.routes.js:30-44 | with the gate handed the route's user: 403 exactly when the caller is neither that user nor an admin, never 400, then 404 or the patched user |
| UserRoutes.DeleteUserIntended | routes/user.routes.js:51-61 | with the gate handed the route's user: 403 exactly when the caller is neither that user nor an admin, then 404 or removal |
| UserRoutes.BodyUserIdOpensAnyAccount | routes/user.routes.js:30 | a non-admin naming themself in `body.userId` updates or deletes any other stored user, where the intended gate answers 403 and leaves the store alone |
| UserRoutes.MissingBodyUserIdIsBadRequest | routes/user.routes.js:51 | an admin, or the user themself, is answered 400 without `body.userId`, where the intended gate lets them through |
| UserRoutes.SelfPromotion | routes/user.routes.js:32 | under either gate, a user may set their own `isAdmin`, after which the admin chain passes their token |

## Left out

- Express plumbing: routing, the upload middleware's call to the image host, the JSON message strings, and the answers given when the store throws. Those are 500 in most handlers, 400 in product create and update (routes/product.routes.js:23-24, :80-81), and 401 inside `verifyToken` (middleware/verifyToken.js:28-31).
- Object ids: every id a request carries is taken to be a well-formed object id in canonical lower-case hex, so comparing ids as strings agrees with comparing the stored ObjectIds. Two consequences are not modelled. An upper-case-hex id of a product already in the cart misses the `find` at routes/cart.routes.js:28, is pushed, and leaves two lines for one product, where `CartMerge.AddLine` merges them. A malformed `:id` makes `findByIdAndUpdate` or `findById` throw a CastError: `PUT /api/products/:id` answers 400 (routes/product.routes.js:80-81), and the other id routes answer 500, where the model answers 404.
- JSON and form bodies: the string fields of a request body (email, password, name, productId and the rest) are taken to be strings. `express.json()` and `express.urlencoded({ extended: true })` (app.js:32-33) can also deliver an object such as `{ "$ne": "" }`, which `findOne({ email })` (routes/auth.routes.js:31, :67) runs as an operator query. Login then checks the password against the first user whose email is not empty, instead of answering 404. Register answers 400 whenever any user exists. So `AuthRoutes.Login`'s "404 exactly when no user has the email" holds for string emails only.
- Mongoose internals: `populate`, `timestamps`, and whether update validators run before or after the lookup. `ProductRoutes.UpdateProduct` checks the fields first, then the id.
- OrderModel.SetStatus: a body without `status` leaves the order's status unchanged. That is what Mongoose 6 and later do with the undefined key in `{ status: req.body.status }`; Mongoose 5 writes null instead. The Mongoose version is not part of this model.
- jsonwebtoken and bcryptjs internals: they are uninterpreted functions. Expiry is whatever `verify` reports at the request's instant, so "3d" is only a setting string and is never added to a clock.
- `JWT_EXPIRES_IN` is taken to be a positive, parseable timespan. The token round trips (`Tokens.CreateToken`, `AuthGate.MintedTokenAuthenticates`, `AuthRoutes.RegisterThenLogin`) assume `SoundTokens` for the configured setting. With "0s" a real jsonwebtoken signs tokens that are already expired and `verifyToken` answers 401. With an unparseable setting `sign` throws and register and login answer 500.
- `trim` on the product's string fields. Stored strings are taken as already trimmed.
- JavaScript coercion: cart and order quantities, prices and amounts are whole numbers. A string quantity, or a missing quantity (`undefined <= 0` is false), is not modelled.
- Fractional prices: the code only compares them, so whole numbers show the same decisions.
- The duplicate auth controller and the stand-alone admin middleware: no route uses them.
- The read-modify-write race between two concurrent cart updates.
- The cart's `populate` of product title and price on read.
- The user and order schema files are not part of this model. The user fields are those the handlers read and write, and `isAdmin` defaults to false. Orders start as "pending".
- The store's own enumeration order for `find` and `findOne`. It is an argument that only has to list the stored documents once each.
- Rejection of a duplicate email by a unique index on update (a 500 path).
- ProductRoutes.CreateProduct: a body `_id` is ignored and the product is stored under a fresh id. The program spreads the body into `new Product(...)` (routes/product.routes.js:15-20), so it honours a supplied `_id`, and answers 400 when that id is a duplicate or malformed (routes/product.routes.js:23-24).
- `UserRoutes.ListUsers`: states membership in both directions, not the count of entries.
- `CartMerge.RemoveLine`: states membership and relative order, not the multiplicity of duplicate lines. Well-formed carts hold none.

## Findings

| source | as written | input that shows it | evidently intended | confidence | as-written member | corrected member |
|---|---|---|---|---|---|---|
| routes/user.routes.js:30 | The update and delete routes name their parameter `:id`, but `verifyUserOrAdmin` reads `params.userId \|\| body.userId`. The gate never sees the user being changed. | A non-admin with id A sends `PUT /api/users/B` with body `{ "userId": "A", "isAdmin": true }` and gets 200, and user B is changed. An admin who sends no `userId` gets 400. | The gate judges the caller against the route's user: pass when the caller is that user or an admin, otherwise 403. | not executed | UserRoutes.BodyUserIdOpensAnyAccount | UserRoutes.UpdateUserIntended |

=== FILE: accounts.dfy ===
/** User documents and the password-free view of them that every handler
    sends out. */
module Accounts {
  import opened Common

  /** A stored user. `password` holds whatever a handler wrote there: the
      digest after registration, the raw value after a profile update. */
  datatype User = User(id: Id, name: string, email: string, password: string, isAdmin: bool)

  /** A user as the API shows it, both for `select("-password")` and for the
      objects the auth handlers build by hand. The type has no place for a
      password, so no response can carry one. */
  datatype PublicUser = PublicUser(id: Id, name: string, email: string, isAdmin: bool)

  function Public(u: User): PublicUser {
    PublicUser(u.id, u.name, u.email, u.isAdmin)
  }

  /** Two users look the same from outside exactly when they differ at most
      in their passwords. */
  lemma PublicForgetsOnlyPassword(u: User, v: User)
    ensures Public(u) == Public(v) <==> u.(password := v.password) == v
  {
  }

  /** Every user is stored under its own id. */
  ghost predicate KeyedById(users: map<Id, User>) {
    forall id :: id in users ==> users[id].id == id
  }

  /** `findOne({ email })`: the first user of the store's enumeration with
      exactly this email (case-sensitive, as stored). */
  function FindByEmail(all: seq<User>, email: string): (found: Option<User>)
    ensures found.Some? ==> found.value in all && found.value.email == email
    ensures found.Some? ==>
      exists k :: 0 <= k < |all| && all[k] == found.value && forall j :: 0 <= j < k ==> all[j].email != email
    ensures found.None? <==> forall i :: 0 <= i < |all| ==> all[i].email != email
  {
    if |all| == 0 then None
    else if all[0].email == email then Some(all[0])
    else FindByEmail(all[1..], email)
  }

  /** When only one stored user has the email, `findOne` finds that user
      whatever order the store enumerates them in. */
  lemma {:induction false} FindByEmailUnique(all: seq<User>, u: User)
    requires u in all
    requires forall i :: 0 <= i < |all| && all[i].email == u.email ==> all[i] == u
    ensures FindByEmail(all, u.email) == Some(u)
  {
    if all[0] != u {
      FindByEmailUnique(all[1..], u);
    }
  }
}

=== FILE: auth_gate.dfy ===
/** The authentication middleware and the two authorization checks layered
    on it (`verifyToken`, `verifyAdmin`, `verifyUserOrAdmin`). */
module AuthGate {
  import opened Common
  import opened Accounts
  import opened Tokens

  const BearerPrefix: string := "Bearer "

  /** `s.split(sep)` for a one-character separator: the pieces between
      consecutive separators, empty pieces included. */
  function Split(s: string, sep: char): (parts: seq<string>)
    ensures |parts| >= 1
    ensures sep in s <==> |parts| >= 2
    ensures forall i :: 0 <= i < |parts| ==> sep !in parts[i]
  {
    if |s| == 0 then [""]
    else
      var rest := Split(s[1..], sep);
      assert s == [s[0]] + s[1..];
      if s[0] == sep then [""] + rest
      else [[s[0]] + rest[0]] + rest[1..]
  }

  /** `parts.join(sep)`. */
  function Join(parts: seq<string>, sep: char): string
    requires |parts| >= 1
  {
    if |parts| == 1 then parts[0] else parts[0] + [sep] + Join(parts[1..], sep)
  }

  /** Splitting loses nothing: joining the pieces gives the string back. */
  lemma {:induction false} JoinSplit(s: string, sep: char)
    ensures Join(Split(s, sep), sep) == s
  {
    if |s| > 0 {
      var rest := Split(s[1..], sep);
      JoinSplit(s[1..], sep);
      assert s == [s[0]] + s[1..];
      if s[0] == sep {
        var parts := [""] + rest;
        assert Split(s, sep) == parts;
        assert parts[1..] == rest;
      } else {
        var parts := [[s[0]] + rest[0]] + rest[1..];
        assert Split(s, sep) == parts;
        assert parts[1..] == rest[1..];
        if |rest| > 1 {
          assert Join(rest, sep) == rest[0] + [sep] + Join(rest[1..], sep);
          assert Join(parts, sep) == [s[0]] + rest[0] + [sep] + Join(rest[1..], sep);
        }
      }
    }
  }

  /** Splitting a string whose first piece is `p` yields `p` followed by the
      pieces of the rest. */
  lemma {:induction false} SplitAfter(p: string, q: string, sep: char)
    requires sep !in p
    ensures Split(p + q, sep) == [p + Split(q, sep)[0]] + Split(q, sep)[1..]
  {
    var pieces := Split(q, sep);
    if |p| == 0 {
      assert p + q == q;
      assert p + pieces[0] == pieces[0];
      assert [pieces[0]] + pieces[1..] == pieces;
    } else {
      var rest := Split(p[1..] + q, sep);
      SplitAfter(p[1..], q, sep);
      assert p + q == [p[0]] + (p[1..] + q);
      assert (p + q)[1..] == p[1..] + q;
      assert p[0] != sep by { assert p[0] in p; }
      assert Split(p + q, sep) == [[p[0]] + rest[0]] + rest[1..];
      assert [p[0]] + (p[1..] + pieces[0]) == p + pieces[0];
    }
  }

  /** Joining separator-free pieces and splitting again gives the pieces back. */
  lemma {:induction false} SplitJoin(parts: seq<string>, sep: char)
    requires |parts| >= 1
    requires forall i :: 0 <= i < |parts| ==> sep !in parts[i]
    ensures Split(Join(parts, sep), sep) == parts
  {
    if |parts| == 1 {
      SplitAfter(parts[0], "", sep);
      assert parts[0] + "" == parts[0];
    } else {
      var rest := Join(parts[1..], sep);
      assert Join(parts, sep) == parts[0] + ([sep] + rest);
      SplitJoin(parts[1..], sep);
      SplitAfter(parts[0], [sep] + rest, sep);
      assert parts[0] + ([sep] + rest) == parts[0] + [sep] + rest;
      assert ([sep] + rest)[1..] == rest;
      assert Split([sep] + rest, sep) == [""] + parts[1..];
      assert parts[0] + "" == parts[0];
      assert parts == [parts[0]] + parts[1..];
    }
  }

  /** The header has the shape `Bearer <...>`. */
  predicate IsBearer(h: string) {
    |h| >= |BearerPrefix| && h[..|BearerPrefix|] == BearerPrefix
  }

  /** The token of an authorization header: `header.split(" ")[1]`, after
      the check that the header is present and starts with "Bearer ". */
  function BearerToken(header: Option<string>): (token: Option<string>)
    ensures token.Some? <==> header.Some? && IsBearer(header.value)
    ensures token.Some? ==>
      var h, n := header.value, |BearerPrefix| + |token.value|;
      && ' ' !in token.value
      && n <= |h|
      && h[..n] == BearerPrefix + token.value
      && (n == |h| || h[n] == ' ')
  {
    if !Truthy(header) || !IsBearer(header.value) then None
    else
      var h := header.value;
      var rest := h[|BearerPrefix|..];
      assert h == "Bearer" + ([' '] + rest);
      SplitAfter("Bearer", [' '] + rest, ' ');
      assert ([' '] + rest)[1..] == rest;
      assert Split(h, ' ')[1] == Split(rest, ' ')[0];
      FirstPiece(rest, ' ');
      Some(Split(h, ' ')[1])
  }

  /** The first piece of a split is the input up to its first separator. */
  lemma FirstPiece(s: string, sep: char)
    ensures var t := Split(s, sep)[0];
      |t| <= |s| && s[..|t|] == t && (|t| == |s| || s[|t|] == sep)
  {
    var parts := Split(s, sep);
    JoinSplit(s, sep);
    if |parts| >= 2 {
      assert s == parts[0] + [sep] + Join(parts[1..], sep);
    }
  }

  /** A well-formed header gives back exactly the token that was put in it. */
  lemma BearerRoundTrip(t: string)
    requires ' ' !in t
    ensures BearerToken(Some(BearerPrefix + t)) == Some(t)
  {
    var h := BearerPrefix + t;
    assert IsBearer(h) by { assert h[..|BearerPrefix|] == BearerPrefix; }
    var tok := BearerToken(Some(h)).value;
    var n := |BearerPrefix| + |tok|;
    assert h[..n] == BearerPrefix + tok;
    assert n == |h|;
    assert h == BearerPrefix + tok;
    assert h[|BearerPrefix|..] == t;
    assert (BearerPrefix + tok)[|BearerPrefix|..] == tok;
  }

  /** The header carries a token that the token service accepts. */
  predicate HasValidToken(svc: TokenService, header: Option<string>) {
    BearerToken(header).Some? && svc.verify(BearerToken(header).value).Valid?
  }

  /** The id the accepted token names. */
  function Subject(svc: TokenService, header: Option<string>): Id
    requires HasValidToken(svc, header)
  {
    svc.verify(BearerToken(header).value).claims.id
  }

  /** `verifyToken`: answer 401 unless the header carries a token the service
      accepts, 404 when the token's subject is no longer stored, and
      otherwise pass the stored user, without password, to the next handler. */
  function VerifyToken(users: map<Id, User>, svc: TokenService, header: Option<string>): (g: Gate<PublicUser>)
    ensures g == Reject(Unauthorized) <==> !HasValidToken(svc, header)
    ensures g == Reject(NotFound) <==> HasValidToken(svc, header) && Subject(svc, header) !in users
    ensures g.Pass? <==> HasValidToken(svc, header) && Subject(svc, header) in users
    ensures g.Pass? ==> g.value == Public(users[Subject(svc, header)])
  {
    match BearerToken(header)
    case None => Reject(Unauthorized)
    case Some(token) =>
      match svc.verify(token)
      case Invalid(_) => Reject(Unauthorized)
      case Valid(claims) =>
        if claims.id in users then Pass(Public(users[claims.id])) else Reject(NotFound)
  }

  /** `verifyAdmin`: re-read the caller from the store; 404 when gone, 403
      when the stored record is not an admin. The token's own `isAdmin`
      claim plays no part. */
  function VerifyAdmin(users: map<Id, User>, caller: PublicUser): (g: Gate<PublicUser>)
    ensures g.Pass? <==> caller.id in users && users[caller.id].isAdmin
    ensures g.Pass? ==> g.value == caller
    ensures g == Reject(NotFound) <==> caller.id !in users
    ensures g == Reject(Forbidden) <==> caller.id in users && !users[caller.id].isAdmin
  {
    if caller.id !in users then Reject(NotFound)
    else if !users[caller.id].isAdmin then Reject(Forbidden)
    else Pass(caller)
  }

  /** `req.params.userId || req.body.userId`: the first truthy of the two. */
  function Target(params: map<string, string>, bodyUserId: Option<string>): (t: Option<Id>)
    ensures t.Some? ==> t.value != ""
    ensures Truthy(Param(params, "userId")) ==> t == Param(params, "userId")
    ensures !Truthy(Param(params, "userId")) ==> t == (if Truthy(bodyUserId) then bodyUserId else None)
  {
    var fromParams := Param(params, "userId");
    if Truthy(fromParams) then fromParams
    else if Truthy(bodyUserId) then bodyUserId
    else None
  }

  /** `verifyUserOrAdmin`: 400 when the request names no target user, pass
      when the caller is that user or an admin, 403 otherwise. */
  function VerifyUserOrAdmin(caller: PublicUser, params: map<string, string>, bodyUserId: Option<string>): (g: Gate<PublicUser>)
    ensures g == Reject(BadRequest) <==> !Truthy(Param(params, "userId")) && !Truthy(bodyUserId)
    ensures g.Pass? <==> Target(params, bodyUserId).Some? && (caller.id == Target(params, bodyUserId).value || caller.isAdmin)
    ensures g.Pass? ==> g.value == caller
    ensures g.Reject? ==> g.status == BadRequest || g.status == Forbidden
  {
    match Target(params, bodyUserId)
    case None => Reject(BadRequest)
    case Some(target) =>
      if caller.id == target || caller.isAdmin then Pass(caller) else Reject(Forbidden)
  }

  /** `verifyToken` followed by `verifyAdmin`, the guard of every admin route. */
  function AdminGate(users: map<Id, User>, svc: TokenService, header: Option<string>): (g: Gate<PublicUser>)
    ensures VerifyToken(users, svc, header).Reject? ==> g == VerifyToken(users, svc, header)
    ensures KeyedById(users) ==>
      (g.Pass? <==> HasValidToken(svc, header) && Subject(svc, header) in users && users[Subject(svc, header)].isAdmin)
    ensures g.Pass? ==> g == VerifyToken(users, svc, header)
  {
    match VerifyToken(users, svc, header)
    case Reject(s) => Reject(s)
    case Pass(caller) => VerifyAdmin(users, caller)
  }

  /** Both stages read the same store, so once the token is accepted the
      admin check can only say 403, never 404; and an unacceptable token is
      answered 401 before any question of privilege. */
  lemma AdminGateOutcomes(users: map<Id, User>, svc: TokenService, header: Option<string>)
    requires KeyedById(users)
    ensures !HasValidToken(svc, header) ==> AdminGate(users, svc, header) == Reject(Unauthorized)
    ensures HasValidToken(svc, header) && Subject(svc, header) in users && !users[Subject(svc, header)].isAdmin
      ==> AdminGate(users, svc, header) == Reject(Forbidden)
  {
  }

  /** A token that verifies but whose user was deleted since is answered 404,
      not 401, by every guarded route. */
  lemma StaleTokenIsNotFound(users: map<Id, User>, svc: TokenService, t: string, c: Claims)
    requires ' ' !in t
    requires svc.verify(t) == Valid(c)
    requires c.id !in users
    ensures VerifyToken(users, svc, Some(BearerPrefix + t)) == Reject(NotFound)
    ensures AdminGate(users, svc, Some(BearerPrefix + t)) == Reject(NotFound)
  {
    BearerRoundTrip(t);
  }

  /** A freshly minted token for a stored user opens the gate as that user. */
  lemma MintedTokenAuthenticates(users: map<Id, User>, svc: TokenService, env: Option<string>, u: User)
    requires SoundTokens(svc, ExpiresIn(env))
    requires KeyedById(users) && u.id in users && users[u.id] == u
    ensures VerifyToken(users, svc, Some(BearerPrefix + CreateToken(svc, env, u))) == Pass(Public(u))
  {
    BearerRoundTrip(CreateToken(svc, env, u));
  }
}

=== FILE: auth_routes.dfy ===
/** The authentication endpoints: register, login, the caller's own profile
    and the admin-only probe. */
module AuthRoutes {
  import opened Common
  import opened Accounts
  import opened Tokens
  import opened AuthGate
  import opened Store

  datatype RegisterBody = RegisterBody(name: Option<string>, email: Option<string>, password: Option<string>)

  datatype LoginBody = LoginBody(email: Option<string>, password: Option<string>)

  /** What register and login send back: a token and the user without password. */
  datatype Session = Session(token: string, user: PublicUser)

  /** Some stored user has this email. */
  ghost predicate EmailTaken(users: map<Id, User>, email: string) {
    exists id :: id in users && users[id].email == email
  }

  /** Over a faithful enumeration, `findOne({ email })` finds a user exactly
      when the email is taken, and what it finds is stored. */
  lemma FindByEmailInStore(users: map<Id, User>, all: seq<User>, email: string)
    requires Lists(all, users)
    ensures FindByEmail(all, email).Some? <==> EmailTaken(users, email)
    ensures FindByEmail(all, email).Some? ==> FindByEmail(all, email).value in users.Values
  {
    if EmailTaken(users, email) {
      var id :| id in users && users[id].email == email;
      assert users[id] in users.Values;
      assert users[id] in all;
    }
    if FindByEmail(all, email).Some? {
      var u := FindByEmail(all, email).value;
      var id :| id in users && users[id] == u;
    }
  }

  /** `POST /api/auth/register`: 400 when a field is missing or the email is
      taken; otherwise a non-admin user holding the password's digest is
      stored under a fresh id, and 201 carries a token and the user. */
  function Register(db: Db, hasher: Hasher, svc: TokenService, env: Option<string>, body: RegisterBody, all: seq<User>, freshId: Id): (r: Reply<Session>)
    requires Lists(all, db.users)
    requires freshId !in db.users
    ensures !Truthy(body.name) || !Truthy(body.email) || !Truthy(body.password) ==> r == Refuse(db, BadRequest)
    ensures Truthy(body.email) && EmailTaken(db.users, body.email.value) ==> r == Refuse(db, BadRequest)
    ensures r.status == Created <==>
      Truthy(body.name) && Truthy(body.email) && Truthy(body.password) && !EmailTaken(db.users, body.email.value)
    ensures r.status != Created ==> r.db == db
    ensures r.status == Created ==>
      && freshId in r.db.users
      && var u := r.db.users[freshId];
      && r.db == db.(users := db.users[freshId := u])
      && u == User(freshId, body.name.value, body.email.value, hasher.hash(body.password.value), false)
      && (SoundHasher(hasher) ==> hasher.compare(body.password.value, u.password))
      && r.body == Some(Session(CreateToken(svc, env, u), Public(u)))
    ensures Consistent(db) ==> Consistent(r.db)
  {
    if !Truthy(body.name) || !Truthy(body.email) || !Truthy(body.password) then Refuse(db, BadRequest)
    else
      FindByEmailInStore(db.users, all, body.email.value);
      if FindByEmail(all, body.email.value).Some? then Refuse(db, BadRequest)
      else
        var u := User(freshId, body.name.value, body.email.value, hasher.hash(body.password.value), false);
        Reply(Created, db.(users := db.users[freshId := u]), Some(Session(CreateToken(svc, env, u), Public(u))))
  }

  /** `POST /api/auth/login`: 400 for a missing field, 404 for an unknown
      email, 401 when the password does not match the stored digest, else
      200 with a token and the user found. */
  function Login(db: Db, hasher: Hasher, svc: TokenService, env: Option<string>, body: LoginBody, all: seq<User>): (r: Reply<Session>)
    requires Lists(all, db.users)
    ensures r.db == db
    ensures !Truthy(body.email) || !Truthy(body.password) ==> r == Refuse(db, BadRequest)
    ensures Truthy(body.email) && Truthy(body.password) ==>
      && (!EmailTaken(db.users, body.email.value) <==> r == Refuse(db, NotFound))
      && (EmailTaken(db.users, body.email.value) ==>
            && FindByEmail(all, body.email.value).Some?
            && var u := FindByEmail(all, body.email.value).value;
            && u in db.users.Values && u.email == body.email.value
            && (hasher.compare(body.password.value, u.password) <==> r.status == Ok)
            && (r.status == Ok ==> r.body == Some(Session(CreateToken(svc, env, u), Public(u))))
            && (r.status != Ok ==> r == Refuse(db, Unauthorized)))
  {
    if !Truthy(body.email) || !Truthy(body.password) then Refuse(db, BadRequest)
    else
      FindByEmailInStore(db.users, all, body.email.value);
      match FindByEmail(all, body.email.value)
      case None => Refuse(db, NotFound)
      case Some(u) =>
        if !hasher.compare(body.password.value, u.password) then Refuse(db, Unauthorized)
        else Reply(Ok, db, Some(Session(CreateToken(svc, env, u), Public(u))))
  }

  /** Registering and then logging in with the same credentials succeeds,
      finds the user just stored, and the token it hands out opens the gate
      as that user. */
  lemma RegisterThenLogin(db: Db, hasher: Hasher, svc: TokenService, env: Option<string>, body: RegisterBody,
                          all: seq<User>, freshId: Id, all': seq<User>)
    requires Consistent(db)
    requires SoundHasher(hasher) && SoundTokens(svc, ExpiresIn(env))
    requires Lists(all, db.users) && freshId !in db.users
    requires Register(db, hasher, svc, env, body, all, freshId).status == Created
    requires Lists(all', Register(db, hasher, svc, env, body, all, freshId).db.users)
    ensures var db' := Register(db, hasher, svc, env, body, all, freshId).db;
      var u := db'.users[freshId];
      var r := Login(db', hasher, svc, env, LoginBody(body.email, body.password), all');
      && r == Reply(Ok, db', Some(Session(CreateToken(svc, env, u), Public(u))))
      && VerifyToken(db'.users, svc, Some(BearerPrefix + r.body.value.token)) == Pass(Public(u))
  {
    var db' := Register(db, hasher, svc, env, body, all, freshId).db;
    var u := db'.users[freshId];
    assert u in db'.users.Values;
    assert forall id :: id in db.users ==> db.users[id].email != u.email;
    forall i | 0 <= i < |all'| && all'[i].email == u.email
      ensures all'[i] == u
    {
      assert all'[i] in db'.users.Values;
      var id :| id in db'.users && db'.users[id] == all'[i];
    }
    FindByEmailUnique(all', u);
    MintedTokenAuthenticates(db'.users, svc, env, u);
  }

  /** `GET /api/auth/me`: the caller re-read from the store, without
      password; 404 when gone. */
  function Me(db: Db, svc: TokenService, auth: Option<string>): (r: Reply<PublicUser>)
    ensures r.db == db
    ensures VerifyToken(db.users, svc, auth).Reject? ==> r == Refuse(db, VerifyToken(db.users, svc, auth).status)
    ensures VerifyToken(db.users, svc, auth).Pass? ==>
      var caller := VerifyToken(db.users, svc, auth).value;
      && (r.status == Ok <==> caller.id in db.users)
      && (caller.id !in db.users ==> r == Refuse(db, NotFound))
      && (caller.id in db.users ==> r.body == Some(Public(db.users[caller.id])))
    ensures KeyedById(db.users) && VerifyToken(db.users, svc, auth).Pass? ==>
      r == Reply(Ok, db, Some(VerifyToken(db.users, svc, auth).value))
  {
    match VerifyToken(db.users, svc, auth)
    case Reject(s) => Refuse(db, s)
    case Pass(caller) =>
      if caller.id !in db.users then Refuse(db, NotFound)
      else Reply(Ok, db, Some(Public(db.users[caller.id])))
  }

  /** `GET /api/auth/admin-only`: reached only through both `verifyToken` and
      `verifyAdmin`; greets the admin by email. */
  function AdminOnly(db: Db, svc: TokenService, auth: Option<string>): (r: Reply<string>)
    ensures r.db == db
    ensures r.status == Ok <==> AdminGate(db.users, svc, auth).Pass?
    ensures r.status != Ok ==> r == Refuse(db, AdminGate(db.users, svc, auth).status)
    ensures r.status == Ok ==> r.body == Some(AdminGate(db.users, svc, auth).value.email)
  {
    match AdminGate(db.users, svc, auth)
    case Reject(s) => Refuse(db, s)
    case Pass(caller) => Reply(Ok, db, Some(caller.email))
  }
}

=== FILE: cart_merge.dfy ===
/** The cart's line list and the two edits the cart handlers make to it:
    merging a `(productId, quantity)` line in, and filtering a product out. */
module CartMerge {
  import opened Common
  import Seqs

  /** One line of a cart. Quantities are whole numbers; a request always
      carries one. */
  datatype Line = Line(productId: Id, quantity: int)

  /** A user's cart: owned by `owner`, lines in the order they were added. */
  datatype Cart = Cart(owner: Id, lines: seq<Line>)

  /** No product appears on two lines. */
  predicate UniqueProducts(lines: seq<Line>) {
    forall i, j :: 0 <= i < j < |lines| ==> lines[i].productId != lines[j].productId
  }

  /** Every line holds at least one unit. */
  predicate PositiveQuantities(lines: seq<Line>) {
    forall i :: 0 <= i < |lines| ==> lines[i].quantity > 0
  }

  /** The invariant every stored cart keeps. */
  predicate WellFormed(lines: seq<Line>) {
    UniqueProducts(lines) && PositiveQuantities(lines)
  }

  /** Some line is for `pid`. */
  predicate HasProduct(lines: seq<Line>, pid: Id) {
    exists i :: 0 <= i < |lines| && lines[i].productId == pid
  }

  /** The total quantity of `pid` the lines list: the reference meaning of a
      cart, independent of how its lines are arranged. */
  function Qty(lines: seq<Line>, pid: Id): int {
    if |lines| == 0 then 0
    else (if lines[0].productId == pid then lines[0].quantity else 0) + Qty(lines[1..], pid)
  }

  /** `cart.products.find(p => p.productId.toString() === productId)`: the
      position of the first line for `pid`. */
  function FindLine(lines: seq<Line>, pid: Id): (k: Option<nat>)
    ensures k.Some? ==> k.value < |lines| && lines[k.value].productId == pid
    ensures k.Some? ==> forall j :: 0 <= j < k.value ==> lines[j].productId != pid
    ensures k.None? <==> !HasProduct(lines, pid)
  {
    if |lines| == 0 then None
    else if lines[0].productId == pid then Some(0)
    else
      match FindLine(lines[1..], pid)
      case None =>
        assert forall j :: 1 <= j < |lines| ==> lines[j] == lines[1..][j - 1];
        None
      case Some(k) => Some(k + 1)
  }

  /** Merge a line into an existing cart: the first line for the product
      grows by `qty` and every other line, a second one for the product
      included, is kept; with no such line, a new one goes at the end. */
  function AddLine(lines: seq<Line>, pid: Id, qty: int): (r: seq<Line>)
    ensures |r| == |lines| + (if HasProduct(lines, pid) then 0 else 1)
    ensures forall i :: 0 <= i < |lines| ==> r[i].productId == lines[i].productId
    ensures forall i :: 0 <= i < |lines| && lines[i].productId != pid ==> r[i] == lines[i]
    ensures !HasProduct(lines, pid) ==> r[|lines|] == Line(pid, qty)
    ensures UniqueProducts(lines) ==> forall i :: 0 <= i < |lines| && lines[i].productId == pid ==>
      r[i].quantity == lines[i].quantity + qty
    ensures FindLine(lines, pid).Some? ==>
      var k := FindLine(lines, pid).value;
      && r[k] == lines[k].(quantity := lines[k].quantity + qty)
      && forall i :: 0 <= i < |lines| && i != k ==> r[i] == lines[i]
  {
    match FindLine(lines, pid)
    case Some(k) => lines[k := lines[k].(quantity := lines[k].quantity + qty)]
    case None => lines + [Line(pid, qty)]
  }

  /** The cart after adding: a fresh one-line cart owned by the caller when
      they had none, the merged cart otherwise. */
  function Add(cart: Option<Cart>, caller: Id, pid: Id, qty: int): (r: Cart)
    ensures cart.None? ==> r == Cart(caller, [Line(pid, qty)])
    ensures cart.Some? ==> r.owner == cart.value.owner && r.lines == AddLine(cart.value.lines, pid, qty)
  {
    match cart
    case None => Cart(caller, [Line(pid, qty)])
    case Some(c) => c.(lines := AddLine(c.lines, pid, qty))
  }

  /** The lines without any line for `pid`. */
  function KeepOthers(pid: Id): Line -> bool {
    (l: Line) => l.productId != pid
  }

  /** `cart.products.filter(p => p.productId.toString() !== productId)`. */
  function RemoveLine(lines: seq<Line>, pid: Id): (r: seq<Line>)
    ensures forall l :: l in r <==> l in lines && l.productId != pid
    ensures Seqs.IsSubseq(r, lines)
    ensures !HasProduct(r, pid)
  {
    Seqs.FilterIsSubseq(lines, KeepOthers(pid));
    Seqs.Filter(lines, KeepOthers(pid))
  }

  /** Adding `qty` of `pid` raises the cart's total for `pid` by exactly
      `qty` and leaves every other product's total alone. */
  lemma {:induction false} AddLineQty(lines: seq<Line>, pid: Id, qty: int, x: Id)
    ensures Qty(AddLine(lines, pid, qty), x) == Qty(lines, x) + (if x == pid then qty else 0)
  {
    if |lines| == 0 {
      assert AddLine(lines, pid, qty) == [Line(pid, qty)];
    } else if lines[0].productId == pid {
      var r := AddLine(lines, pid, qty);
      assert r[1..] == lines[1..];
    } else {
      AddLineQty(lines[1..], pid, qty, x);
      var r := AddLine(lines, pid, qty);
      assert r == [lines[0]] + AddLine(lines[1..], pid, qty) by {
        match FindLine(lines[1..], pid)
        case Some(k) =>
          assert FindLine(lines, pid) == Some(k + 1);
        case None =>
          assert FindLine(lines, pid) == None;
      }
      assert r[1..] == AddLine(lines[1..], pid, qty);
    }
  }

  /** Removing `pid` zeroes its total and leaves every other total alone. */
  lemma {:induction false} RemoveLineQty(lines: seq<Line>, pid: Id, x: Id)
    ensures Qty(RemoveLine(lines, pid), x) == (if x == pid then 0 else Qty(lines, x))
  {
    if |lines| > 0 {
      RemoveLineQty(lines[1..], pid, x);
      var tail := RemoveLine(lines[1..], pid);
      var r := RemoveLine(lines, pid);
      if lines[0].productId == pid {
        assert r == tail;
      } else {
        assert r == [lines[0]] + tail;
        assert r[1..] == tail;
      }
    }
  }

  /** Adding a positive quantity keeps a cart well formed. */
  lemma AddLinePreservesWellFormed(lines: seq<Line>, pid: Id, qty: int)
    requires WellFormed(lines)
    requires qty > 0
    ensures WellFormed(AddLine(lines, pid, qty))
  {
    var r := AddLine(lines, pid, qty);
    if !HasProduct(lines, pid) {
      forall i, j | 0 <= i < j < |r|
        ensures r[i].productId != r[j].productId
      {
        if j == |lines| {
          assert r[i].productId == lines[i].productId;
        }
      }
    }
  }

  /** Removing a product keeps a cart well formed. */
  lemma {:induction false} RemoveLinePreservesWellFormed(lines: seq<Line>, pid: Id)
    requires WellFormed(lines)
    ensures WellFormed(RemoveLine(lines, pid))
  {
    var r := RemoveLine(lines, pid);
    if |lines| > 0 {
      var tail := RemoveLine(lines[1..], pid);
      RemoveLinePreservesWellFormed(lines[1..], pid);
      if lines[0].productId != pid {
        assert r == [lines[0]] + tail;
        forall j | 0 <= j < |tail|
          ensures tail[j].productId != lines[0].productId
        {
          assert tail[j] in lines[1..];
        }
      } else {
        assert r == tail;
      }
    }
    forall i | 0 <= i < |r|
      ensures r[i].quantity > 0
    {
      assert r[i] in lines;
    }
  }

  /** Removing twice is removing once. */
  lemma RemoveLineIdempotent(lines: seq<Line>, pid: Id)
    ensures RemoveLine(RemoveLine(lines, pid), pid) == RemoveLine(lines, pid)
  {
    Seqs.FilterIdempotent(lines, KeepOthers(pid));
  }

  /** Removing a product the cart does not hold changes nothing. */
  lemma RemoveAbsentIsNoOp(lines: seq<Line>, pid: Id)
    requires !HasProduct(lines, pid)
    ensures RemoveLine(lines, pid) == lines
  {
    Seqs.FilterKeepsAll(lines, KeepOthers(pid));
  }

  /** A worked example: add P1 x2, P1 x3, P2 x1, then
      remove P1. */
  lemma Walkthrough()
    ensures var c1 := Add(None, "u", "P1", 2);
            var c2 := Add(Some(c1), "u", "P1", 3);
            var c3 := Add(Some(c2), "u", "P2", 1);
            && c1 == Cart("u", [Line("P1", 2)])
            && c2 == Cart("u", [Line("P1", 5)])
            && c3 == Cart("u", [Line("P1", 5), Line("P2", 1)])
            && RemoveLine(c3.lines, "P1") == [Line("P2", 1)]
  {
    var c3 := Cart("u", [Line("P1", 5), Line("P2", 1)]);
    assert FindLine([Line("P1", 5)], "P2") == None;
    assert Seqs.Filter(c3.lines[1..], KeepOthers("P1")) == [Line("P2", 1)];
  }
}

=== FILE: cart_routes.dfy ===
/** The cart endpoints: `POST /api/cart`, `GET /api/cart/:userId` and
    `DELETE /api/cart/:productId`, each behind `verifyToken`. */
module CartRoutes {
  import opened Common
  import opened Tokens
  import opened AuthGate
  import opened CartMerge
  import opened Store
  import Seqs

  /** The body of an add request. The quantity is taken to be a number. */
  datatype AddBody = AddBody(productId: Option<Id>, quantity: int)

  /** The lines of `uid`'s cart, none when the user has no cart. */
  function LinesOf(db: Db, uid: Id): seq<Line> {
    if uid in db.carts then db.carts[uid].lines else []
  }

  /** Only the cart of `uid` may differ between the two stores. */
  ghost predicate OnlyCartChanged(db: Db, db': Db, uid: Id) {
    && db' == db.(carts := db'.carts)
    && uid in db'.carts
    && forall o :: o != uid ==> (o in db'.carts <==> o in db.carts) && (o in db.carts ==> db'.carts[o] == db.carts[o])
  }

  /** `POST /api/cart`: 400 for a missing product id or a quantity not above
      zero; otherwise the caller's cart, created when absent, gains the line. */
  function AddToCart(db: Db, svc: TokenService, auth: Option<string>, body: AddBody): (r: Reply<Cart>)
    ensures VerifyToken(db.users, svc, auth).Reject? ==> r == Refuse(db, VerifyToken(db.users, svc, auth).status)
    ensures VerifyToken(db.users, svc, auth).Pass? && (!Truthy(body.productId) || body.quantity <= 0)
      ==> r == Refuse(db, BadRequest)
    ensures r.status == Ok <==> VerifyToken(db.users, svc, auth).Pass? && Truthy(body.productId) && body.quantity > 0
    ensures r.status == Ok ==>
      var uid := VerifyToken(db.users, svc, auth).value.id;
      && OnlyCartChanged(db, r.db, uid)
      && r.body == Some(r.db.carts[uid])
      && (uid !in db.carts ==> r.db.carts[uid] == Cart(uid, [Line(body.productId.value, body.quantity)]))
      && (uid in db.carts ==> r.db.carts[uid].owner == db.carts[uid].owner)
      && (uid in db.carts ==> r.db.carts[uid].lines == AddLine(db.carts[uid].lines, body.productId.value, body.quantity))
    ensures Consistent(db) ==> Consistent(r.db)
  {
    match VerifyToken(db.users, svc, auth)
    case Reject(s) => Refuse(db, s)
    case Pass(caller) =>
      if !Truthy(body.productId) || body.quantity <= 0 then Refuse(db, BadRequest)
      else
        var current := if caller.id in db.carts then Some(db.carts[caller.id]) else None;
        var cart := Add(current, caller.id, body.productId.value, body.quantity);
        Reply(Ok, db.(carts := db.carts[caller.id := cart]), Some(cart))
  }

  /** What an accepted add does to the caller's cart: the product's total
      grows by the quantity, every other total stays, and a well-formed
      cart stays well formed. */
  lemma AddToCartMerges(db: Db, svc: TokenService, auth: Option<string>, body: AddBody)
    requires AddToCart(db, svc, auth, body).status == Ok
    ensures var r := AddToCart(db, svc, auth, body);
      var uid := VerifyToken(db.users, svc, auth).value.id;
      && (forall x :: Qty(r.db.carts[uid].lines, x)
                    == Qty(LinesOf(db, uid), x) + (if x == body.productId.value then body.quantity else 0))
      && (CartsWellFormed(db) ==> CartsWellFormed(r.db))
  {
    var r := AddToCart(db, svc, auth, body);
    var uid := VerifyToken(db.users, svc, auth).value.id;
    var pid := body.productId.value;
    forall x
      ensures Qty(r.db.carts[uid].lines, x) == Qty(LinesOf(db, uid), x) + (if x == pid then body.quantity else 0)
    {
      AddLineQty(LinesOf(db, uid), pid, body.quantity, x);
      assert LinesOf(db, uid) == [] ==> AddLine(LinesOf(db, uid), pid, body.quantity) == [Line(pid, body.quantity)];
    }
    if CartsWellFormed(db) {
      AddLinePreservesWellFormed(LinesOf(db, uid), pid, body.quantity);
      assert LinesOf(db, uid) == [] ==> AddLine(LinesOf(db, uid), pid, body.quantity) == [Line(pid, body.quantity)];
    }
  }

  /** `GET /api/cart/:userId`: 403 unless the caller is that user or an
      admin, then 404 when the user has no cart. Nothing is written. */
  function GetCart(db: Db, svc: TokenService, auth: Option<string>, userId: Id): (r: Reply<Cart>)
    ensures r.db == db
    ensures VerifyToken(db.users, svc, auth).Reject? ==> r == Refuse(db, VerifyToken(db.users, svc, auth).status)
    ensures VerifyToken(db.users, svc, auth).Pass? ==>
      var caller := VerifyToken(db.users, svc, auth).value;
      && (caller.id != userId && !caller.isAdmin ==> r == Refuse(db, Forbidden))
      && ((caller.id == userId || caller.isAdmin) && userId !in db.carts ==> r == Refuse(db, NotFound))
      && ((caller.id == userId || caller.isAdmin) && userId in db.carts ==> r == Reply(Ok, db, Some(db.carts[userId])))
    ensures r.status == Ok ==> userId in db.carts && r.body == Some(db.carts[userId])
  {
    match VerifyToken(db.users, svc, auth)
    case Reject(s) => Refuse(db, s)
    case Pass(caller) =>
      if caller.id != userId && !caller.isAdmin then Refuse(db, Forbidden)
      else if userId !in db.carts then Refuse(db, NotFound)
      else Reply(Ok, db, Some(db.carts[userId]))
  }

  /** `DELETE /api/cart/:productId`: 404 when the caller has no cart;
      otherwise every line for the product goes, the rest keep their order. */
  function RemoveFromCart(db: Db, svc: TokenService, auth: Option<string>, productId: Id): (r: Reply<Cart>)
    ensures VerifyToken(db.users, svc, auth).Reject? ==> r == Refuse(db, VerifyToken(db.users, svc, auth).status)
    ensures VerifyToken(db.users, svc, auth).Pass? && VerifyToken(db.users, svc, auth).value.id !in db.carts
      ==> r == Refuse(db, NotFound)
    ensures r.status == Ok <==> VerifyToken(db.users, svc, auth).Pass? && VerifyToken(db.users, svc, auth).value.id in db.carts
    ensures r.status == Ok ==>
      var uid := VerifyToken(db.users, svc, auth).value.id;
      && OnlyCartChanged(db, r.db, uid)
      && uid in db.carts
      && r.body == Some(r.db.carts[uid])
      && r.db.carts[uid].owner == db.carts[uid].owner
      && var before, after := db.carts[uid].lines, r.db.carts[uid].lines;
      && (forall l :: l in after <==> l in before && l.productId != productId)
      && Seqs.IsSubseq(after, before)
      && after == RemoveLine(before, productId)
    ensures Consistent(db) ==> Consistent(r.db)
    ensures CartsWellFormed(db) ==> CartsWellFormed(r.db)
  {
    match VerifyToken(db.users, svc, auth)
    case Reject(s) => Refuse(db, s)
    case Pass(caller) =>
      if caller.id !in db.carts then Refuse(db, NotFound)
      else
        var current := db.carts[caller.id];
        var cart := current.(lines := RemoveLine(current.lines, productId));
        assert WellFormed(current.lines) ==> WellFormed(cart.lines) by {
          if WellFormed(current.lines) {
            RemoveLinePreservesWellFormed(current.lines, productId);
          }
        }
        Reply(Ok, db.(carts := db.carts[caller.id := cart]), Some(cart))
  }

  /** Deleting the same product twice leaves the store as deleting it once. */
  lemma RemoveFromCartIdempotent(db: Db, svc: TokenService, auth: Option<string>, productId: Id)
    requires RemoveFromCart(db, svc, auth, productId).status == Ok
    ensures var once := RemoveFromCart(db, svc, auth, productId);
      RemoveFromCart(once.db, svc, auth, productId) == once
  {
    var once := RemoveFromCart(db, svc, auth, productId);
    var caller := VerifyToken(db.users, svc, auth).value;
    assert once.db.users == db.users;
    RemoveLineIdempotent(db.carts[caller.id].lines, productId);
    assert once.db.carts[caller.id := once.db.carts[caller.id]] == once.db.carts;
  }

  /** The cart an accepted add answers with is the one the caller then reads
      back. */
  lemma AddThenGetCart(db: Db, svc: TokenService, auth: Option<string>, body: AddBody)
    requires AddToCart(db, svc, auth, body).status == Ok
    ensures var added := AddToCart(db, svc, auth, body);
      var uid := VerifyToken(db.users, svc, auth).value.id;
      GetCart(added.db, svc, auth, uid) == Reply(Ok, added.db, added.body)
  {
  }
}

=== FILE: catalog.dfy ===
/** The product document: its fields, the schema's defaults and bounds, and
    the `pre("save")` hook that derives `onSale`. Prices are whole numbers:
    the code only compares them. */
module Catalog {
  import opened Common

  datatype Product = Product(
    id: Id,
    name: string,
    description: Option<string>,
    brand: Option<string>,
    category: Option<string>,
    price: int,
    salePrice: int,
    discount: int,
    onSale: bool,
    countInStock: int,
    image: string)

  /** The product fields a request body may carry; `None` is an absent field. */
  datatype Fields = Fields(
    name: Option<string>,
    description: Option<string>,
    brand: Option<string>,
    category: Option<string>,
    price: Option<int>,
    salePrice: Option<int>,
    discount: Option<int>,
    onSale: Option<bool>,
    countInStock: Option<int>,
    image: Option<string>)

  const MaxDiscount: int := 100

  /** The schema validators: a non-empty name, non-negative prices and stock,
      a discount percentage within [0, 100]. */
  predicate SchemaValid(p: Product) {
    && p.name != ""
    && p.price >= 0
    && p.salePrice >= 0
    && 0 <= p.discount <= MaxDiscount
    && p.countInStock >= 0
  }

  function GetOr<T>(o: Option<T>, default: T): T {
    match o
    case Some(v) => v
    case None => default
  }

  /** `new Product({...body, image})`: fields the body carries, schema
      defaults for the rest (none for the optional texts, "" for a missing
      name, which the required validator then refuses). */
  function FromFields(id: Id, f: Fields, image: string): (p: Product)
    ensures p.id == id && p.image == image
    ensures p.name == (if f.name.Some? then f.name.value else "")
    ensures p.description == f.description && p.brand == f.brand && p.category == f.category
    ensures p.price == (if f.price.Some? then f.price.value else 0)
    ensures p.salePrice == (if f.salePrice.Some? then f.salePrice.value else 0)
    ensures p.discount == (if f.discount.Some? then f.discount.value else 0)
    ensures p.onSale == (f.onSale.Some? && f.onSale.value)
    ensures p.countInStock == (if f.countInStock.Some? then f.countInStock.value else 0)
  {
    Product(id, GetOr(f.name, ""), f.description, f.brand, f.category,
            GetOr(f.price, 0), GetOr(f.salePrice, 0), GetOr(f.discount, 0),
            GetOr(f.onSale, false), GetOr(f.countInStock, 0), image)
  }

  /** A product is discounted by its sale price. */
  predicate SalePriced(p: Product) {
    0 < p.salePrice < p.price
  }

  /** The `pre("save")` hook: `onSale` is recomputed from the prices,
      whatever value the document carried. */
  function Save(p: Product): (q: Product)
    ensures q.onSale <==> SalePriced(p)
    ensures q.(onSale := p.onSale) == p
  {
    p.(onSale := p.salePrice > 0 && p.salePrice < p.price)
  }

  /** Saving twice is saving once. */
  lemma SaveIdempotent(p: Product)
    ensures Save(Save(p)) == Save(p)
  {
  }

  /** The `onSale` a document arrives with has no effect on what is saved. */
  lemma SaveIgnoresSuppliedOnSale(p: Product, b: bool)
    ensures Save(p.(onSale := b)) == Save(p)
  {
  }

  /** Saving changes no bound: a valid product stays valid. */
  lemma SavePreservesValid(p: Product)
    ensures SchemaValid(Save(p)) <==> SchemaValid(p)
  {
  }

  /** A product with no fields given is the all-defaults document. */
  lemma Defaults(id: Id)
    ensures var p := Save(FromFields(id, Fields(None, None, None, None, None, None, None, None, None, None), ""));
      && p.price == 0 && p.salePrice == 0 && p.discount == 0
      && !p.onSale && p.countInStock == 0 && p.image == ""
      && !SchemaValid(p)
  {
  }

  /** The `$set` of an update: every field the body carries replaces the
      stored one, and no hook runs, so `onSale` is taken as given. */
  function ApplyFields(p: Product, f: Fields): (q: Product)
    ensures q.id == p.id
    ensures q.name == (if f.name.Some? then f.name.value else p.name)
    ensures q.description == (if f.description.Some? then f.description else p.description)
    ensures q.brand == (if f.brand.Some? then f.brand else p.brand)
    ensures q.category == (if f.category.Some? then f.category else p.category)
    ensures q.price == (if f.price.Some? then f.price.value else p.price)
    ensures q.salePrice == (if f.salePrice.Some? then f.salePrice.value else p.salePrice)
    ensures q.discount == (if f.discount.Some? then f.discount.value else p.discount)
    ensures q.onSale == (if f.onSale.Some? then f.onSale.value else p.onSale)
    ensures q.countInStock == (if f.countInStock.Some? then f.countInStock.value else p.countInStock)
    ensures q.image == (if f.image.Some? then f.image.value else p.image)
  {
    Product(p.id, GetOr(f.name, p.name),
            if f.description.Some? then f.description else p.description,
            if f.brand.Some? then f.brand else p.brand,
            if f.category.Some? then f.category else p.category,
            GetOr(f.price, p.price), GetOr(f.salePrice, p.salePrice),
            GetOr(f.discount, p.discount), GetOr(f.onSale, p.onSale),
            GetOr(f.countInStock, p.countInStock), GetOr(f.image, p.image))
  }

  /** The update validators (`runValidators`): each field the body carries
      must satisfy its own bound. */
  predicate FieldsValid(f: Fields) {
    && (f.name.Some? ==> f.name.value != "")
    && (f.price.Some? ==> f.price.value >= 0)
    && (f.salePrice.Some? ==> f.salePrice.value >= 0)
    && (f.discount.Some? ==> 0 <= f.discount.value <= MaxDiscount)
    && (f.countInStock.Some? ==> f.countInStock.value >= 0)
  }

  /** Validating each carried field is enough: a valid product updated with
      valid fields stays valid, and a valid creation body gives a valid
      product. */
  lemma FieldsValidSuffice(p: Product, f: Fields, id: Id, image: string)
    ensures SchemaValid(p) && FieldsValid(f) ==> SchemaValid(ApplyFields(p, f))
    ensures SchemaValid(FromFields(id, f, image)) <==> FieldsValid(f) && f.name.Some?
  {
  }

  /** Because no hook runs on update, an update can leave `onSale` set on a
      product that has no sale price. */
  lemma UpdateBypassesOnSaleRule(p: Product)
    requires p.salePrice == 0
    ensures var f := Fields(None, None, None, None, None, None, None, Some(true), None, None);
      ApplyFields(p, f).onSale && !SalePriced(ApplyFields(p, f))
  {
  }
}

=== FILE: common.dfy ===
/** Shared vocabulary of the shop backend model: document ids, optional
    request fields, the statuses a handler answers with, and the outcome of
    a middleware. */
module Common {

  /** A document id (a store object id, compared as its string rendering). */
  type Id = string

  datatype Option<+T> = None | Some(value: T)

  /** JavaScript truthiness of an optional string: an absent field and the
      empty string are both falsy. */
  predicate Truthy(s: Option<string>) {
    s.Some? && s.value != ""
  }

  /** The route parameter `name`, absent when the route pattern has none. */
  function Param(params: map<string, string>, name: string): Option<string> {
    if name in params then Some(params[name]) else None
  }

  /** The statuses the handlers answer with (the 500 of a failing store is
      not modelled). */
  datatype Status =
    | Ok            // 200
    | Created       // 201
    | BadRequest    // 400
    | Unauthorized  // 401
    | Forbidden     // 403
    | NotFound      // 404

  /** What a middleware does with a request: call `next` carrying a value,
      or answer with an error status itself. */
  datatype Gate<+T> = Pass(value: T) | Reject(status: Status)

  /** `all` lists every value stored in `m` exactly once, in whatever order
      the store enumerates them: what a `find({})` query hands back. */
  ghost predicate Lists<T(!new)>(all: seq<T>, m: map<Id, T>) {
    && (forall v :: v in all <==> v in m.Values)
    && (forall i, j :: 0 <= i < j < |all| ==> all[i] != all[j])
  }
}

=== FILE: order_routes.dfy ===
/** The order endpoints: checkout, the caller's own orders, the admin
    listing, listing by user (self or admin), and the admin status update
    and delete. */
module OrderRoutes {
  import opened Common
  import opened Accounts
  import opened Tokens
  import opened AuthGate
  import opened OrderModel
  import opened Store
  import Seqs

  /** The body of a checkout. A `user` field may be sent; it is ignored. */
  datatype OrderBody = OrderBody(
    products: Option<seq<OrderItem>>,
    amount: Option<int>,
    address: Option<string>,
    user: Option<Id>)

  /** `!products || !amount || !address` is false: an empty product list is
      present, an amount of 0 and an empty address are not. */
  predicate Complete(body: OrderBody) {
    body.products.Some? && body.amount.Some? && body.amount.value != 0 && Truthy(body.address)
  }

  /** `POST /api/orders`: 400 for an incomplete body; otherwise a new order
      owned by the caller, status "pending", stamped `now`. */
  function CreateOrder(db: Db, svc: TokenService, auth: Option<string>, body: OrderBody, freshId: Id, now: int): (r: Reply<Order>)
    requires freshId !in db.orders
    ensures VerifyToken(db.users, svc, auth).Reject? ==> r == Refuse(db, VerifyToken(db.users, svc, auth).status)
    ensures VerifyToken(db.users, svc, auth).Pass? ==>
      (r.status == Created <==> Complete(body)) && (!Complete(body) ==> r == Refuse(db, BadRequest))
    ensures r.status != Created ==> r.db == db
    ensures r.status == Created ==>
      && r.body.Some?
      && var o := r.body.value;
      && r.db == db.(orders := db.orders[freshId := o])
      && o.id == freshId
      && o.user == VerifyToken(db.users, svc, auth).value.id
      && o.products == body.products.value
      && o.amount == body.amount.value
      && o.address == body.address.value
      && o.status == DefaultStatus
      && o.createdAt == now
    ensures Consistent(db) ==> Consistent(r.db)
  {
    match VerifyToken(db.users, svc, auth)
    case Reject(s) => Refuse(db, s)
    case Pass(caller) =>
      if !Complete(body) then Refuse(db, BadRequest)
      else
        var o := Order(freshId, caller.id, body.products.value, body.amount.value, body.address.value, DefaultStatus, now);
        Reply(Created, db.(orders := db.orders[freshId := o]), Some(o))
  }

  /** Whoever sends the checkout owns the order, whatever `user` the body
      names. */
  lemma OrderOwnerIsCaller(db: Db, svc: TokenService, auth: Option<string>, body: OrderBody, freshId: Id, now: int, someone: Id)
    requires freshId !in db.orders
    requires KeyedById(db.users)
    requires CreateOrder(db, svc, auth, body, freshId, now).status == Created
    ensures CreateOrder(db, svc, auth, body.(user := Some(someone)), freshId, now)
         == CreateOrder(db, svc, auth, body, freshId, now)
    ensures CreateOrder(db, svc, auth, body, freshId, now).body.value.user == Subject(svc, auth)
  {
  }

  /** `GET /api/orders/my-orders`: exactly the caller's orders, newest first. */
  function MyOrders(db: Db, svc: TokenService, auth: Option<string>, all: seq<Order>): (r: Reply<seq<Order>>)
    requires Lists(all, db.orders)
    ensures r.db == db
    ensures VerifyToken(db.users, svc, auth).Reject? ==> r == Refuse(db, VerifyToken(db.users, svc, auth).status)
    ensures VerifyToken(db.users, svc, auth).Pass? ==>
      && r.status == Ok && r.body.Some?
      && NewestFirst(r.body.value)
      && (forall o :: o in r.body.value <==> o in db.orders.Values && o.user == VerifyToken(db.users, svc, auth).value.id)
      && multiset(r.body.value) == multiset(Seqs.Filter(all, OwnedBy(VerifyToken(db.users, svc, auth).value.id)))
  {
    match VerifyToken(db.users, svc, auth)
    case Reject(s) => Refuse(db, s)
    case Pass(caller) => Reply(Ok, db, Some(OrdersOf(all, caller.id)))
  }

  /** `GET /api/orders` (admin): every order, newest first. */
  function AllOrders(db: Db, svc: TokenService, auth: Option<string>, all: seq<Order>): (r: Reply<seq<Order>>)
    requires Lists(all, db.orders)
    ensures r.db == db
    ensures AdminGate(db.users, svc, auth).Reject? ==> r == Refuse(db, AdminGate(db.users, svc, auth).status)
    ensures AdminGate(db.users, svc, auth).Pass? ==>
      && r.status == Ok && r.body.Some?
      && NewestFirst(r.body.value)
      && multiset(r.body.value) == multiset(all)
  {
    match AdminGate(db.users, svc, auth)
    case Reject(s) => Refuse(db, s)
    case Pass(_) => Reply(Ok, db, Some(SortNewestFirst(all)))
  }

  /** `GET /api/orders/user/:userId`: 403 unless the caller is that user or
      an admin; then exactly that user's orders, newest first. */
  function UserOrders(db: Db, svc: TokenService, auth: Option<string>, userId: Id, all: seq<Order>): (r: Reply<seq<Order>>)
    requires Lists(all, db.orders)
    ensures r.db == db
    ensures VerifyToken(db.users, svc, auth).Reject? ==> r == Refuse(db, VerifyToken(db.users, svc, auth).status)
    ensures VerifyToken(db.users, svc, auth).Pass? ==>
      var caller := VerifyToken(db.users, svc, auth).value;
      && (r.status == Ok <==> caller.id == userId || caller.isAdmin)
      && (r.status != Ok ==> r == Refuse(db, Forbidden))
    ensures r.status == Ok ==>
      && r.body.Some?
      && NewestFirst(r.body.value)
      && (forall o :: o in r.body.value <==> o in db.orders.Values && o.user == userId)
      && multiset(r.body.value) == multiset(Seqs.Filter(all, OwnedBy(userId)))
  {
    match VerifyToken(db.users, svc, auth)
    case Reject(s) => Refuse(db, s)
    case Pass(caller) =>
      if caller.id != userId && !caller.isAdmin then Refuse(db, Forbidden)
      else Reply(Ok, db, Some(OrdersOf(all, userId)))
  }

  /** `PUT /api/orders/:id` (admin): 404 for an unknown order; otherwise only
      its status changes. */
  function UpdateOrderStatus(db: Db, svc: TokenService, auth: Option<string>, id: Id, status: Option<string>): (r: Reply<Order>)
    ensures AdminGate(db.users, svc, auth).Reject? ==> r == Refuse(db, AdminGate(db.users, svc, auth).status)
    ensures AdminGate(db.users, svc, auth).Pass? ==>
      (r.status == Ok <==> id in db.orders) && (id !in db.orders ==> r == Refuse(db, NotFound))
    ensures r.status != Ok ==> r.db == db
    ensures r.status == Ok ==>
      && id in db.orders && r.body.Some?
      && var o := r.body.value;
      && r.db == db.(orders := db.orders[id := o])
      && o.(status := db.orders[id].status) == db.orders[id]
      && (status.Some? ==> o.status == status.value)
    ensures Consistent(db) ==> Consistent(r.db)
  {
    match AdminGate(db.users, svc, auth)
    case Reject(s) => Refuse(db, s)
    case Pass(_) =>
      if id !in db.orders then Refuse(db, NotFound)
      else
        var o := SetStatus(db.orders[id], status);
        Reply(Ok, db.(orders := db.orders[id := o]), Some(o))
  }

  /** `DELETE /api/orders/:id` (admin): 404 or removal. */
  function DeleteOrder(db: Db, svc: TokenService, auth: Option<string>, id: Id): (r: Reply<Order>)
    ensures AdminGate(db.users, svc, auth).Reject? ==> r == Refuse(db, AdminGate(db.users, svc, auth).status)
    ensures AdminGate(db.users, svc, auth).Pass? ==> (r.status == Ok <==> id in db.orders)
    ensures AdminGate(db.users, svc, auth).Pass? && id !in db.orders ==> r == Refuse(db, NotFound)
    ensures r.status != Ok ==> r.db == db
    ensures r.status == Ok ==> r.db == db.(orders := db.orders - {id}) && id !in r.db.orders
    ensures Consistent(db) ==> Consistent(r.db)
  {
    match AdminGate(db.users, svc, auth)
    case Reject(s) => Refuse(db, s)
    case Pass(_) =>
      if id !in db.orders then Refuse(db, NotFound)
      else Reply(Ok, db.(orders := db.orders - {id}), None)
  }

  /** A new order shows up in its owner's "my orders", ahead of every order
      stamped earlier. */
  lemma NewOrderListedFirst(db: Db, svc: TokenService, auth: Option<string>, body: OrderBody, freshId: Id, now: int, all: seq<Order>)
    requires freshId !in db.orders
    requires CreateOrder(db, svc, auth, body, freshId, now).status == Created
    requires Lists(all, CreateOrder(db, svc, auth, body, freshId, now).db.orders)
    ensures var created := CreateOrder(db, svc, auth, body, freshId, now);
      var mine := MyOrders(created.db, svc, auth, all);
      && mine.status == Ok
      && created.body.value in mine.body.value
      && forall i :: 0 <= i < |mine.body.value| && mine.body.value[i] == created.body.value ==>
           forall j :: 0 <= j < i ==> mine.body.value[j].createdAt >= now
  {
    var created := CreateOrder(db, svc, auth, body, freshId, now);
    assert created.db.orders[freshId] == created.body.value;
  }
}

=== FILE: orders.dfy ===
/** Order documents and the newest-first ordering of `sort({ createdAt: -1 })`.
    The order schema file is not part of this model: the fields are those
    the handlers read and write, and the default status is "pending". */
module OrderModel {
  import opened Common
  import Seqs

  /** One entry of an order's product list, stored as the client sent it. */
  datatype OrderItem = OrderItem(productId: Id, quantity: int)

  /** `createdAt` is the store's timestamp, a clock reading taken at insert. */
  datatype Order = Order(
    id: Id,
    user: Id,
    products: seq<OrderItem>,
    amount: int,
    address: string,
    status: string,
    createdAt: int)

  const DefaultStatus: string := "pending"

  /** Later orders come first. */
  predicate NewestFirst(s: seq<Order>) {
    forall i, j :: 0 <= i < j < |s| ==> s[i].createdAt >= s[j].createdAt
  }

  /** Put `o` into a newest-first list, in front of everything not newer. */
  function Insert(o: Order, s: seq<Order>): (r: seq<Order>)
    requires NewestFirst(s)
    ensures NewestFirst(r)
    ensures multiset(r) == multiset(s) + multiset{o}
    ensures forall x :: x in r ==> x == o || x in s
  {
    if |s| == 0 then [o]
    else if o.createdAt >= s[0].createdAt then [o] + s
    else
      var rest := Insert(o, s[1..]);
      assert s == [s[0]] + s[1..];
      assert forall x :: x in rest ==> x.createdAt <= s[0].createdAt;
      [s[0]] + rest
  }

  /** The result of `sort({ createdAt: -1 })`: the same orders, newest first. */
  function SortNewestFirst(s: seq<Order>): (r: seq<Order>)
    ensures NewestFirst(r)
    ensures multiset(r) == multiset(s)
  {
    if |s| == 0 then []
    else
      assert s == [s[0]] + s[1..];
      Insert(s[0], SortNewestFirst(s[1..]))
  }

  /** The query filter `{ user: uid }`. */
  function OwnedBy(uid: Id): Order -> bool {
    (o: Order) => o.user == uid
  }

  /** `Order.find({ user: uid }).sort({ createdAt: -1 })` over the store's
      enumeration `all`: exactly the orders of `uid`, newest first. */
  function OrdersOf(all: seq<Order>, uid: Id): (r: seq<Order>)
    ensures NewestFirst(r)
    ensures forall o :: o in r <==> o in all && o.user == uid
    ensures multiset(r) == multiset(Seqs.Filter(all, OwnedBy(uid)))
  {
    var mine := Seqs.Filter(all, OwnedBy(uid));
    var r := SortNewestFirst(mine);
    assert forall o :: o in r <==> o in multiset(r);
    assert forall o :: o in mine <==> o in multiset(mine);
    r
  }

  /** The admin status update: `status` is replaced when the body carries
      one, and no other field of the order changes. */
  function SetStatus(o: Order, status: Option<string>): (r: Order)
    ensures r.(status := o.status) == o
    ensures status.Some? ==> r.status == status.value
    ensures status.None? ==> r == o
  {
    match status
    case Some(s) => o.(status := s)
    case None => o
  }
}

=== FILE: product_routes.dfy ===
/** The product endpoints: the public listing, sale listing and lookup, and
    the admin-only create, update and delete (each behind `verifyToken`
    then `verifyAdmin`). The uploaded file is the optional path the upload
    middleware leaves on the request. */
module ProductRoutes {
  import opened Common
  import opened Tokens
  import opened AuthGate
  import opened Catalog
  import opened Store
  import Seqs

  /** The `/sale` test: a positive discount, the `onSale` flag, or a
      non-zero sale price below the price. */
  predicate IsSaleItem(p: Product) {
    p.discount > 0 || p.onSale || (p.salePrice != 0 && p.salePrice < p.price)
  }

  /** The sale listing drawn from the catalogue as the store lists it. */
  function SaleListing(all: seq<Product>): (r: seq<Product>)
    ensures forall p :: p in r <==> p in all && IsSaleItem(p)
    ensures Seqs.IsSubseq(r, all)
  {
    Seqs.FilterIsSubseq(all, IsSaleItem);
    Seqs.Filter(all, IsSaleItem)
  }

  /** A product with no discount, no flag and no sale price is never listed;
      for a product as saved, the flag and the sale-price test coincide, so
      it is listed exactly when discounted or sale-priced. */
  lemma SaleListingMembers(all: seq<Product>, p: Product)
    ensures p.discount == 0 && !p.onSale && p.salePrice == 0 ==> p !in SaleListing(all)
    ensures SchemaValid(p) && Save(p) in all ==> (Save(p) in SaleListing(all) <==> p.discount > 0 || SalePriced(p))
  {
  }

  /** `GET /api/products/sale`, public and read-only. */
  function SaleRoute(db: Db, all: seq<Product>): (r: Reply<seq<Product>>)
    requires Lists(all, db.products)
    ensures r.status == Ok && r.db == db && r.body.Some?
    ensures forall p :: p in r.body.value <==> p in db.products.Values && IsSaleItem(p)
    ensures Seqs.IsSubseq(r.body.value, all)
  {
    Reply(Ok, db, Some(SaleListing(all)))
  }

  /** `GET /api/products`: the whole catalogue, as the store lists it. */
  function ListProducts(db: Db, all: seq<Product>): (r: Reply<seq<Product>>)
    requires Lists(all, db.products)
    ensures r.status == Ok && r.db == db && r.body == Some(all)
    ensures forall p :: p in r.body.value <==> p in db.products.Values
    ensures forall i, j :: 0 <= i < j < |r.body.value| ==> r.body.value[i] != r.body.value[j]
  {
    Reply(Ok, db, Some(all))
  }

  /** `GET /api/products/:id`: the product, or 404. */
  function GetProduct(db: Db, id: Id): (r: Reply<Product>)
    ensures r.db == db
    ensures r.status == Ok <==> id in db.products
    ensures r.status != Ok ==> r == Refuse(db, NotFound)
    ensures r.status == Ok ==> r.body == Some(db.products[id])
  {
    if id in db.products then Reply(Ok, db, Some(db.products[id])) else Refuse(db, NotFound)
  }

  /** The image of a new product: the uploaded path, else the body's image
      when non-empty, else "". */
  function CreateImage(file: Option<string>, bodyImage: Option<string>): (image: string)
    ensures Truthy(file) ==> image == file.value
    ensures !Truthy(file) && Truthy(bodyImage) ==> image == bodyImage.value
    ensures !Truthy(file) && !Truthy(bodyImage) ==> image == ""
  {
    if Truthy(file) then file.value else if Truthy(bodyImage) then bodyImage.value else ""
  }

  /** The `image` of an update patch: the uploaded path overrides; without
      one the field is whatever the body carried, possibly nothing. */
  function UpdateImage(file: Option<string>, bodyImage: Option<string>): (image: Option<string>)
    ensures Truthy(file) ==> image == file
    ensures !Truthy(file) ==> image == bodyImage
  {
    if Truthy(file) then file else bodyImage
  }

  /** Create and update agree on the image except where the request gives
      neither an upload nor a non-empty image: create then stores "", while
      update stores the body's "" or keeps the old image. */
  lemma ImageRulesAgree(file: Option<string>, bodyImage: Option<string>)
    ensures Truthy(file) || Truthy(bodyImage) ==> UpdateImage(file, bodyImage) == Some(CreateImage(file, bodyImage))
    ensures !Truthy(file) && !Truthy(bodyImage) ==>
      (UpdateImage(file, bodyImage) != Some(CreateImage(file, bodyImage)) <==> bodyImage.None?)
  {
  }

  /** `POST /api/products`: the admin guard, then the document built from the
      body, with defaults and the image rule, validated (400) and saved with
      `onSale` derived. */
  function CreateProduct(db: Db, svc: TokenService, auth: Option<string>, fields: Fields, file: Option<string>, freshId: Id): (r: Reply<Product>)
    requires freshId !in db.products
    ensures AdminGate(db.users, svc, auth).Reject? ==> r == Refuse(db, AdminGate(db.users, svc, auth).status)
    ensures AdminGate(db.users, svc, auth).Pass? ==>
      && (r.status == Created <==> FieldsValid(fields) && fields.name.Some?)
      && (!(FieldsValid(fields) && fields.name.Some?) ==> r == Refuse(db, BadRequest))
    ensures r.status != Created ==> r.db == db && r.body.None?
    ensures r.status == Created ==>
      && r.body.Some?
      && var p := r.body.value;
      && r.db == db.(products := db.products[freshId := p])
      && p.id == freshId
      && p.name == fields.name.value
      && p.description == fields.description && p.brand == fields.brand && p.category == fields.category
      && SchemaValid(p)
      && (p.onSale <==> SalePriced(p))
      && p.image == CreateImage(file, fields.image)
      && p.price == GetOr(fields.price, 0)
      && p.salePrice == GetOr(fields.salePrice, 0)
      && p.discount == GetOr(fields.discount, 0)
      && p.countInStock == GetOr(fields.countInStock, 0)
    ensures Consistent(db) ==> Consistent(r.db)
  {
    match AdminGate(db.users, svc, auth)
    case Reject(s) => Refuse(db, s)
    case Pass(_) =>
      var draft := FromFields(freshId, fields, CreateImage(file, fields.image));
      FieldsValidSuffice(draft, fields, freshId, CreateImage(file, fields.image));
      if !SchemaValid(draft) then Refuse(db, BadRequest)
      else
        var p := Save(draft);
        Reply(Created, db.(products := db.products[freshId := p]), Some(p))
  }

  /** `PUT /api/products/:id`: the admin guard, then the body's fields (the
      image by the update rule) are validated one by one (400) and set on the
      stored product (404 when there is none). `onSale` is not re-derived. */
  function UpdateProduct(db: Db, svc: TokenService, auth: Option<string>, id: Id, fields: Fields, file: Option<string>): (r: Reply<Product>)
    ensures AdminGate(db.users, svc, auth).Reject? ==> r == Refuse(db, AdminGate(db.users, svc, auth).status)
    ensures AdminGate(db.users, svc, auth).Pass? ==>
      && (!FieldsValid(fields) ==> r == Refuse(db, BadRequest))
      && (FieldsValid(fields) && id !in db.products ==> r == Refuse(db, NotFound))
      && (r.status == Ok <==> FieldsValid(fields) && id in db.products)
    ensures r.status != Ok ==> r.db == db && r.body.None?
    ensures r.status == Ok ==>
      && id in db.products && r.body.Some?
      && var before, p := db.products[id], r.body.value;
      && r.db == db.(products := db.products[id := p])
      && p == ApplyFields(before, fields.(image := UpdateImage(file, fields.image)))
      && p.id == before.id
      && (SchemaValid(before) ==> SchemaValid(p))
      && (Truthy(file) ==> p.image == file.value)
      && (!Truthy(file) && fields.image.Some? ==> p.image == fields.image.value)
      && (!Truthy(file) && fields.image.None? ==> p.image == before.image)
      && p.onSale == GetOr(fields.onSale, before.onSale)
    ensures Consistent(db) ==> Consistent(r.db)
  {
    match AdminGate(db.users, svc, auth)
    case Reject(s) => Refuse(db, s)
    case Pass(_) =>
      var patch := fields.(image := UpdateImage(file, fields.image));
      if !FieldsValid(patch) then Refuse(db, BadRequest)
      else if id !in db.products then Refuse(db, NotFound)
      else
        var p := ApplyFields(db.products[id], patch);
        FieldsValidSuffice(db.products[id], patch, id, "");
        Reply(Ok, db.(products := db.products[id := p]), Some(p))
  }

  /** `DELETE /api/products/:id`: the admin guard, then 404 or removal. */
  function DeleteProduct(db: Db, svc: TokenService, auth: Option<string>, id: Id): (r: Reply<Product>)
    ensures AdminGate(db.users, svc, auth).Reject? ==> r == Refuse(db, AdminGate(db.users, svc, auth).status)
    ensures AdminGate(db.users, svc, auth).Pass? ==> (r.status == Ok <==> id in db.products)
    ensures AdminGate(db.users, svc, auth).Pass? && id !in db.products ==> r == Refuse(db, NotFound)
    ensures r.status != Ok ==> r.db == db
    ensures r.status == Ok ==> r.db == db.(products := db.products - {id}) && id !in r.db.products
    ensures Consistent(db) ==> Consistent(r.db)
  {
    match AdminGate(db.users, svc, auth)
    case Reject(s) => Refuse(db, s)
    case Pass(_) =>
      if id !in db.products then Refuse(db, NotFound)
      else Reply(Ok, db.(products := db.products - {id}), None)
  }

  /** On every admin product route a request without an acceptable token is
      answered 401, before any question of privilege, and an authenticated
      non-admin is answered 403, before any question of input. */
  lemma AdminRoutesAuthenticateFirst(db: Db, svc: TokenService, auth: Option<string>, id: Id, fields: Fields, file: Option<string>, freshId: Id)
    requires Consistent(db)
    requires freshId !in db.products
    ensures !HasValidToken(svc, auth) ==>
      && CreateProduct(db, svc, auth, fields, file, freshId).status == Unauthorized
      && UpdateProduct(db, svc, auth, id, fields, file).status == Unauthorized
      && DeleteProduct(db, svc, auth, id).status == Unauthorized
    ensures HasValidToken(svc, auth) && Subject(svc, auth) in db.users && !db.users[Subject(svc, auth)].isAdmin ==>
      && CreateProduct(db, svc, auth, fields, file, freshId).status == Forbidden
      && UpdateProduct(db, svc, auth, id, fields, file).status == Forbidden
      && DeleteProduct(db, svc, auth, id).status == Forbidden
  {
    AdminGateOutcomes(db.users, svc, auth);
  }

  /** A product just created is what `GET /api/products/:id` returns. */
  lemma CreateThenGet(db: Db, svc: TokenService, auth: Option<string>, fields: Fields, file: Option<string>, freshId: Id)
    requires freshId !in db.products
    requires CreateProduct(db, svc, auth, fields, file, freshId).status == Created
    ensures var created := CreateProduct(db, svc, auth, fields, file, freshId);
      GetProduct(created.db, freshId) == Reply(Ok, created.db, created.body)
  {
  }

  /** A product just updated is read back as the update answered it. */
  lemma UpdateThenGet(db: Db, svc: TokenService, auth: Option<string>, id: Id, fields: Fields, file: Option<string>)
    requires UpdateProduct(db, svc, auth, id, fields, file).status == Ok
    ensures var updated := UpdateProduct(db, svc, auth, id, fields, file);
      GetProduct(updated.db, id) == Reply(Ok, updated.db, updated.body)
  {
  }

  /** After a delete the product is gone: reading it, or deleting it again
      with the same credentials, answers 404. */
  lemma DeleteThenGet(db: Db, svc: TokenService, auth: Option<string>, id: Id)
    requires DeleteProduct(db, svc, auth, id).status == Ok
    ensures var deleted := DeleteProduct(db, svc, auth, id);
      && GetProduct(deleted.db, id) == Refuse(deleted.db, NotFound)
      && DeleteProduct(deleted.db, svc, auth, id) == Refuse(deleted.db, NotFound)
  {
  }
}

=== FILE: seqs.dfy ===
/** Order-preserving selection over sequences: the `Array.prototype.filter`
    the handlers use to drop cart lines and to pick sale products. */
module Seqs {

  /** The elements of `s` satisfying `keep`, in their original order. */
  function Filter<T(!new)>(s: seq<T>, keep: T -> bool): (r: seq<T>)
    ensures |r| <= |s|
    ensures forall x :: x in r <==> x in s && keep(x)
  {
    if |s| == 0 then []
    else (if keep(s[0]) then [s[0]] else []) + Filter(s[1..], keep)
  }

  /** `a` can be obtained from `b` by deleting elements, without reordering. */
  predicate IsSubseq<T(==)>(a: seq<T>, b: seq<T>)
    decreases |b|
  {
    if |a| == 0 then true
    else if |b| == 0 then false
    else (a[0] == b[0] && IsSubseq(a[1..], b[1..])) || IsSubseq(a, b[1..])
  }

  /** Filtering keeps the survivors in their relative order. */
  lemma {:induction false} FilterIsSubseq<T(!new)>(s: seq<T>, keep: T -> bool)
    ensures IsSubseq(Filter(s, keep), s)
  {
    if |s| > 0 {
      FilterIsSubseq(s[1..], keep);
      var r := Filter(s, keep);
      if keep(s[0]) {
        assert r == [s[0]] + Filter(s[1..], keep);
        assert r[1..] == Filter(s[1..], keep);
      } else {
        assert r == Filter(s[1..], keep);
      }
    }
  }

  /** Filtering twice by the same predicate is filtering once. */
  lemma {:induction false} FilterIdempotent<T(!new)>(s: seq<T>, keep: T -> bool)
    ensures Filter(Filter(s, keep), keep) == Filter(s, keep)
  {
    if |s| > 0 {
      var tail := Filter(s[1..], keep);
      FilterIdempotent(s[1..], keep);
      if keep(s[0]) {
        var r := Filter(s, keep);
        assert r == [s[0]] + tail;
        assert r[1..] == tail;
        assert Filter(r, keep) == [s[0]] + Filter(tail, keep);
      } else {
        assert Filter(s, keep) == tail;
      }
    }
  }

  /** When every element is kept, filtering changes nothing. */
  lemma {:induction false} FilterKeepsAll<T(!new)>(s: seq<T>, keep: T -> bool)
    requires forall i :: 0 <= i < |s| ==> keep(s[i])
    ensures Filter(s, keep) == s
  {
    if |s| > 0 {
      FilterKeepsAll(s[1..], keep);
      assert [s[0]] + s[1..] == s;
    }
  }
}

=== FILE: store.dfy ===
/** The document store as four maps, and the reply a handler produces: a
    status, the store after the request, and the JSON body when there is
    one worth modelling. */
module Store {
  import opened Common
  import opened Accounts
  import opened Catalog
  import opened CartMerge
  import opened OrderModel

  /** Users, products and orders by id; carts by their owner's id (the
      handlers look carts up with `findOne({ userId })`). */
  datatype Db = Db(
    users: map<Id, User>,
    products: map<Id, Product>,
    carts: map<Id, Cart>,
    orders: map<Id, Order>)

  /** Every document stored under its own id, every cart under its owner's. */
  ghost predicate Consistent(db: Db) {
    && KeyedById(db.users)
    && (forall id :: id in db.products ==> db.products[id].id == id)
    && (forall o :: o in db.carts ==> db.carts[o].owner == o)
    && (forall id :: id in db.orders ==> db.orders[id].id == id)
  }

  /** Every stored cart keeps the line invariant. */
  ghost predicate CartsWellFormed(db: Db) {
    forall o :: o in db.carts ==> WellFormed(db.carts[o].lines)
  }

  datatype Reply<+T> = Reply(status: Status, db: Db, body: Option<T>)

  /** An error answer: the store is left as it was and no document is sent. */
  function Refuse<T>(db: Db, s: Status): Reply<T> {
    Reply(s, db, None)
  }
}

=== FILE: tokens.dfy ===
/** The two foreign collaborators of authentication, jsonwebtoken and
    bcryptjs, as uninterpreted functions, and the token the auth handlers
    mint from a user (`createToken`). */
module Tokens {
  import opened Common
  import opened Accounts

  /** The claim set a token carries (issued-at and expiry are jsonwebtoken's). */
  datatype Claims = Claims(id: Id, email: string, isAdmin: bool)

  /** Why `jwt.verify` throws; the gate answers 401 for all three alike. */
  datatype TokenError = BadSignature | Expired | Malformed

  datatype Verified = Valid(claims: Claims) | Invalid(reason: TokenError)

  /** jsonwebtoken with the process secret bound in. `sign` takes the claims
      and the `expiresIn` setting; `verify` is evaluated at the instant of the
      request, so expiry is whatever it reports. */
  datatype TokenService = TokenService(sign: (Claims, string) -> string, verify: string -> Verified)

  /** bcryptjs. `hash` is the salted hash drawn for this call (the salt is
      part of the function); `compare` checks a plaintext against a digest. */
  datatype Hasher = Hasher(hash: string -> string, compare: (string, string) -> bool)

  /** What the handlers rely on of jsonwebtoken under the deployment's
      `expiresIn` setting `e`: a token signed with it verifies, at the instant
      it is issued, to exactly the claims it was signed with, and a compact
      token contains no space. A real jsonwebtoken meets this for a positive,
      parseable timespan such as "3d"; with "0s" its tokens are born expired,
      and with an unparseable setting `sign` throws. */
  ghost predicate SoundTokens(svc: TokenService, e: string) {
    forall c :: svc.verify(svc.sign(c, e)) == Valid(c) && ' ' !in svc.sign(c, e)
  }

  /** What the handlers rely on of bcrypt: a password matches its own digest. */
  ghost predicate SoundHasher(h: Hasher) {
    forall p :: h.compare(p, h.hash(p))
  }

  const DefaultExpiry: string := "3d"

  /** `process.env.JWT_EXPIRES_IN || "3d"`: an unset or empty setting falls
      back to three days. */
  function ExpiresIn(env: Option<string>): (e: string)
    ensures e != ""
    ensures Truthy(env) ==> e == env.value
    ensures !Truthy(env) ==> e == DefaultExpiry
  {
    if Truthy(env) then env.value else DefaultExpiry
  }

  /** `createToken(user)`: sign `{id, email, isAdmin}` of the user, and
      nothing else. */
  function CreateToken(svc: TokenService, env: Option<string>, u: User): (token: string)
    ensures SoundTokens(svc, ExpiresIn(env)) ==> svc.verify(token) == Valid(Claims(u.id, u.email, u.isAdmin))
    ensures SoundTokens(svc, ExpiresIn(env)) ==> ' ' !in token
  {
    svc.sign(Claims(u.id, u.email, u.isAdmin), ExpiresIn(env))
  }
}

=== FILE: user_routes.dfy ===
/** The user endpoints: the admin listing, and update and delete of one user
    behind `verifyToken` then `verifyUserOrAdmin`.

    The update and delete routes name their parameter `:id`, while
    `verifyUserOrAdmin` looks for `params.userId` and otherwise for
    `body.userId`. As written, the gate therefore never sees the user being
    changed: it checks the caller against whatever `userId` the body names.
    `UpdateUser` and `DeleteUser` model the routes as written;
    `UpdateUserIntended` and `DeleteUserIntended` hand the gate the route's
    user, as the access rule "the user themself or an admin" intends. */
module UserRoutes {
  import opened Common
  import opened Accounts
  import opened Tokens
  import opened AuthGate
  import opened Store

  /** The body of an update. Every user field it carries is written as given;
      `userId` is read by the gate and is no field of a user. */
  datatype UserPatch = UserPatch(
    name: Option<string>,
    email: Option<string>,
    password: Option<string>,
    isAdmin: Option<bool>,
    userId: Option<Id>)

  /** `findByIdAndUpdate(id, req.body)`: the carried fields replace the stored
      ones verbatim (no hook runs, so a password is stored unhashed). */
  function ApplyPatch(u: User, p: UserPatch): (v: User)
    ensures v.id == u.id
    ensures v.name == (if p.name.Some? then p.name.value else u.name)
    ensures v.email == (if p.email.Some? then p.email.value else u.email)
    ensures v.password == (if p.password.Some? then p.password.value else u.password)
    ensures v.isAdmin == (if p.isAdmin.Some? then p.isAdmin.value else u.isAdmin)
  {
    User(u.id,
         if p.name.Some? then p.name.value else u.name,
         if p.email.Some? then p.email.value else u.email,
         if p.password.Some? then p.password.value else u.password,
         if p.isAdmin.Some? then p.isAdmin.value else u.isAdmin)
  }

  /** A patch that carries no user field changes nothing, and patching twice
      with the same body is patching once. */
  lemma ApplyPatchLaws(u: User, p: UserPatch)
    ensures ApplyPatch(u, UserPatch(None, None, None, None, p.userId)) == u
    ensures ApplyPatch(ApplyPatch(u, p), p) == ApplyPatch(u, p)
  {
  }

  /** The password-free view of each user, in the store's order. */
  function PublicAll(all: seq<User>): (r: seq<PublicUser>)
    ensures |r| == |all|
    ensures forall i :: 0 <= i < |all| ==> r[i] == Public(all[i])
  {
    if all == [] then [] else [Public(all[0])] + PublicAll(all[1..])
  }

  /** Over a faithful enumeration the view shows every stored user and
      nothing else. */
  lemma PublicAllCovers(users: map<Id, User>, all: seq<User>)
    requires Lists(all, users)
    ensures forall u :: u in users.Values ==> Public(u) in PublicAll(all)
    ensures forall v :: v in PublicAll(all) ==> exists u :: u in users.Values && v == Public(u)
  {
    var r := PublicAll(all);
    forall u | u in users.Values
      ensures Public(u) in r
    {
      var i :| 0 <= i < |all| && all[i] == u;
      assert r[i] == Public(u);
    }
    forall v | v in r
      ensures exists u :: u in users.Values && v == Public(u)
    {
      var i :| 0 <= i < |r| && r[i] == v;
      assert all[i] in users.Values;
    }
  }

  /** `GET /api/users` (admin): every user without password. */
  function ListUsers(db: Db, svc: TokenService, auth: Option<string>, all: seq<User>): (r: Reply<seq<PublicUser>>)
    requires Lists(all, db.users)
    ensures r.db == db
    ensures AdminGate(db.users, svc, auth).Reject? ==> r == Refuse(db, AdminGate(db.users, svc, auth).status)
    ensures AdminGate(db.users, svc, auth).Pass? ==>
      && r.status == Ok && r.body.Some?
      && (forall u :: u in db.users.Values ==> Public(u) in r.body.value)
      && (forall v :: v in r.body.value ==> exists u :: u in db.users.Values && v == Public(u))
  {
    match AdminGate(db.users, svc, auth)
    case Reject(s) => Refuse(db, s)
    case Pass(_) =>
      PublicAllCovers(db.users, all);
      Reply(Ok, db, Some(PublicAll(all)))
  }

  /** `verifyToken` then `verifyUserOrAdmin` for a request with these route
      parameters and this `body.userId`. */
  function UserGate(db: Db, svc: TokenService, auth: Option<string>, params: map<string, string>, bodyUserId: Option<Id>): Gate<PublicUser> {
    match VerifyToken(db.users, svc, auth)
    case Reject(s) => Reject(s)
    case Pass(caller) => VerifyUserOrAdmin(caller, params, bodyUserId)
  }

  /** `PUT /api/users/:id` as written: the gate is handed `{ id }` as route
      parameters, so it judges the caller against `body.userId` alone; past
      it, 404 for an unknown id, else the patch is stored and the user sent
      back without password. */
  function UpdateUser(db: Db, svc: TokenService, auth: Option<string>, id: Id, patch: UserPatch): (r: Reply<PublicUser>)
    ensures VerifyToken(db.users, svc, auth).Reject? ==> r == Refuse(db, VerifyToken(db.users, svc, auth).status)
    ensures VerifyToken(db.users, svc, auth).Pass? ==>
      var caller := VerifyToken(db.users, svc, auth).value;
      && (!Truthy(patch.userId) ==> r == Refuse(db, BadRequest))
      && (Truthy(patch.userId) && caller.id != patch.userId.value && !caller.isAdmin ==> r == Refuse(db, Forbidden))
      && (r.status == Ok <==> Truthy(patch.userId) && (caller.id == patch.userId.value || caller.isAdmin) && id in db.users)
      && ((Truthy(patch.userId) && (caller.id == patch.userId.value || caller.isAdmin) && id !in db.users)
            ==> r == Refuse(db, NotFound))
    ensures r.status != Ok ==> r.db == db
    ensures r.status == Ok ==>
      && id in db.users
      && r.db == db.(users := db.users[id := ApplyPatch(db.users[id], patch)])
      && r.body == Some(Public(r.db.users[id]))
    ensures Consistent(db) ==> Consistent(r.db)
  {
    match UserGate(db, svc, auth, map["id" := id], patch.userId)
    case Reject(s) => Refuse(db, s)
    case Pass(_) =>
      if id !in db.users then Refuse(db, NotFound)
      else
        var u := ApplyPatch(db.users[id], patch);
        Reply(Ok, db.(users := db.users[id := u]), Some(Public(u)))
  }

  /** `DELETE /api/users/:id` as written: the same gate, then 404 or removal. */
  function DeleteUser(db: Db, svc: TokenService, auth: Option<string>, id: Id, bodyUserId: Option<Id>): (r: Reply<PublicUser>)
    ensures VerifyToken(db.users, svc, auth).Reject? ==> r == Refuse(db, VerifyToken(db.users, svc, auth).status)
    ensures VerifyToken(db.users, svc, auth).Pass? ==>
      var caller := VerifyToken(db.users, svc, auth).value;
      && (!Truthy(bodyUserId) ==> r == Refuse(db, BadRequest))
      && (Truthy(bodyUserId) && caller.id != bodyUserId.value && !caller.isAdmin ==> r == Refuse(db, Forbidden))
      && (r.status == Ok <==> Truthy(bodyUserId) && (caller.id == bodyUserId.value || caller.isAdmin) && id in db.users)
      && ((Truthy(bodyUserId) && (caller.id == bodyUserId.value || caller.isAdmin) && id !in db.users)
            ==> r == Refuse(db, NotFound))
    ensures r.status != Ok ==> r.db == db
    ensures r.status == Ok ==> r.db == db.(users := db.users - {id}) && id !in r.db.users
    ensures Consistent(db) ==> Consistent(r.db)
  {
    match UserGate(db, svc, auth, map["id" := id], bodyUserId)
    case Reject(s) => Refuse(db, s)
    case Pass(_) =>
      if id !in db.users then Refuse(db, NotFound)
      else Reply(Ok, db.(users := db.users - {id}), None)
  }

  /** `PUT /api/users/:id` with the gate handed the route's user, as the
      access rule intends: 403 exactly when the caller is neither that user
      nor an admin, and never 400. Express never matches an empty `:id`. */
  function UpdateUserIntended(db: Db, svc: TokenService, auth: Option<string>, id: Id, patch: UserPatch): (r: Reply<PublicUser>)
    requires id != ""
    ensures VerifyToken(db.users, svc, auth).Reject? ==> r == Refuse(db, VerifyToken(db.users, svc, auth).status)
    ensures VerifyToken(db.users, svc, auth).Pass? ==>
      var caller := VerifyToken(db.users, svc, auth).value;
      && (caller.id != id && !caller.isAdmin <==> r == Refuse(db, Forbidden))
      && (r.status == Ok <==> (caller.id == id || caller.isAdmin) && id in db.users)
      && ((caller.id == id || caller.isAdmin) && id !in db.users ==> r == Refuse(db, NotFound))
      && r.status != BadRequest
    ensures r.status != Ok ==> r.db == db
    ensures r.status == Ok ==>
      && id in db.users
      && r.db == db.(users := db.users[id := ApplyPatch(db.users[id], patch)])
      && r.body == Some(Public(r.db.users[id]))
    ensures Consistent(db) ==> Consistent(r.db)
  {
    match UserGate(db, svc, auth, map["userId" := id], patch.userId)
    case Reject(s) => Refuse(db, s)
    case Pass(_) =>
      if id !in db.users then Refuse(db, NotFound)
      else
        var u := ApplyPatch(db.users[id], patch);
        Reply(Ok, db.(users := db.users[id := u]), Some(Public(u)))
  }

  /** `DELETE /api/users/:id` with the gate handed the route's user. */
  function DeleteUserIntended(db: Db, svc: TokenService, auth: Option<string>, id: Id, bodyUserId: Option<Id>): (r: Reply<PublicUser>)
    requires id != ""
    ensures VerifyToken(db.users, svc, auth).Reject? ==> r == Refuse(db, VerifyToken(db.users, svc, auth).status)
    ensures VerifyToken(db.users, svc, auth).Pass? ==>
      var caller := VerifyToken(db.users, svc, auth).value;
      && (caller.id != id && !caller.isAdmin <==> r == Refuse(db, Forbidden))
      && (r.status == Ok <==> (caller.id == id || caller.isAdmin) && id in db.users)
      && ((caller.id == id || caller.isAdmin) && id !in db.users ==> r == Refuse(db, NotFound))
      && r.status != BadRequest
    ensures r.status != Ok ==> r.db == db
    ensures r.status == Ok ==> r.db == db.(users := db.users - {id}) && id !in r.db.users
    ensures Consistent(db) ==> Consistent(r.db)
  {
    match UserGate(db, svc, auth, map["userId" := id], bodyUserId)
    case Reject(s) => Refuse(db, s)
    case Pass(_) =>
      if id !in db.users then Refuse(db, NotFound)
      else Reply(Ok, db.(users := db.users - {id}), None)
  }

  /** The discrepancy: a signed-in non-admin who puts their own id in
      `body.userId` may update or delete any other user, where the intended
      gate answers 403 and leaves the store alone. */
  lemma BodyUserIdOpensAnyAccount(db: Db, svc: TokenService, auth: Option<string>, id: Id, patch: UserPatch)
    requires VerifyToken(db.users, svc, auth).Pass?
    requires var caller := VerifyToken(db.users, svc, auth).value;
      !caller.isAdmin && caller.id != id && patch.userId == Some(caller.id) && caller.id != ""
    requires id in db.users && id != ""
    ensures UpdateUser(db, svc, auth, id, patch).status == Ok
    ensures UpdateUser(db, svc, auth, id, patch).db.users[id] == ApplyPatch(db.users[id], patch)
    ensures DeleteUser(db, svc, auth, id, patch.userId).status == Ok
    ensures id !in DeleteUser(db, svc, auth, id, patch.userId).db.users
    ensures UpdateUserIntended(db, svc, auth, id, patch) == Refuse(db, Forbidden)
    ensures DeleteUserIntended(db, svc, auth, id, patch.userId) == Refuse(db, Forbidden)
  {
  }

  /** The other face of it: even an admin, or the user themself, is refused
      400 unless the body repeats a `userId`, where the intended gate lets
      them through. */
  lemma MissingBodyUserIdIsBadRequest(db: Db, svc: TokenService, auth: Option<string>, id: Id, patch: UserPatch)
    requires VerifyToken(db.users, svc, auth).Pass?
    requires var caller := VerifyToken(db.users, svc, auth).value;
      caller.isAdmin || caller.id == id
    requires !Truthy(patch.userId)
    requires id in db.users && id != ""
    ensures UpdateUser(db, svc, auth, id, patch) == Refuse(db, BadRequest)
    ensures DeleteUser(db, svc, auth, id, patch.userId) == Refuse(db, BadRequest)
    ensures UpdateUserIntended(db, svc, auth, id, patch).status == Ok
    ensures DeleteUserIntended(db, svc, auth, id, patch.userId).status == Ok
  {
  }

  /** The update stores `isAdmin` from the body like any other field, so with
      either gate a user may make themself an admin: afterwards the admin
      gate lets their token through. */
  lemma SelfPromotion(db: Db, svc: TokenService, auth: Option<string>, patch: UserPatch)
    requires Consistent(db)
    requires VerifyToken(db.users, svc, auth).Pass?
    requires var caller := VerifyToken(db.users, svc, auth).value;
      caller.id != "" && patch.userId == Some(caller.id)
    requires patch.isAdmin == Some(true)
    ensures var me := VerifyToken(db.users, svc, auth).value.id;
      && UpdateUserIntended(db, svc, auth, me, patch) == UpdateUser(db, svc, auth, me, patch)
      && UpdateUser(db, svc, auth, me, patch).status == Ok
      && AdminGate(UpdateUser(db, svc, auth, me, patch).db.users, svc, auth).Pass?
  {
    var me := VerifyToken(db.users, svc, auth).value.id;
    assert me == Subject(svc, auth);
  }
}
